=== FILE: README.md ===
# Organization service — a Dafny model

This project models the core of a small REST service that stores
`Organization` records. It covers:

- the entity and request-body records and their bean-validation constraints;
- the thirteen optional list filters and the way the service ANDs them together;
- the `sort` request parameter parser (`"field,dir;field,dir"`);
- the repository queries: lookup by key, save, delete by key, delete by full
  name, count by type rank, and count and average of the present turnovers;
- the service's create / read / update / delete transitions with their
  `NotFound` outcome;
- the controller's `id < 1` guard, the order in which it reports errors, and
  the shapes of its aggregate responses.

Everything is pure: the table is a `seq<Organization>` in insertion order with
unique keys. Every operation that writes returns the new table next to its
answer. The key the database generates and the instant `@CreationTimestamp`
records are parameters (`freshId`, `now`).

Modules, one per file:

| file | module | models |
|---|---|---|
| `wrappers.dfy` | `Wrappers` | `Option`, for Java's nullable references |
| `text.dfy` | `Text` | `String.trim`, ASCII `toLowerCase`, `contains`, `replace(char, char)`, `split` with a one-character separator, `length()` in UTF-16 code units |
| `sequences.dfy` | `Sequences` | generic `FlatMap`/`Map` over sequences and their laws |
| `model.dfy` | `Model` | `Organization`, `Coordinates`, `Address`, `OrganizationCreateDTO`, their constraints |
| `specification.dfy` | `Specification` | `OrganizationSpecification` and the filter composition of `getAllOrganizations` |
| `sort.dfy` | `SortParser` | `parseSort` |
| `repository.dfy` | `Repository` | `OrganizationRepository` and the inherited `JpaRepository` operations used |
| `service.dfy` | `Service` | `OrganizationService` |
| `controller.dfy` | `Controller` | `OrganizationController` |

Type choices: `Double` is `real`, `Integer` and `Long` are `int`, and
`LocalDateTime` is an `int` instant that is only compared and copied.
`OrganizationType` is stored by name (`EnumType.STRING`), so the model keeps
only the name, and "greater than" takes the order as a parameter
`rank: OrgType -> int`. Declaration order is not assumed.

Where the prose description of the service and its code differ, the model
follows the code:

- Stored rows need not satisfy the `Coordinates` and `Address` constraints.
  The entity marks `coordinates` and `officialAddress` `@NotNull` but not
  `@Valid`, so validation on persist does not look inside them. Only the request
  body's `@Valid` does. The model therefore has two predicates:
  `ValidOrganization` for what persisting checks, and `DeeplyValid`, which adds
  the cascaded constraints. `Service.Consistent` (unique keys, every row
  `DeeplyValid`) is shown to hold on every table the controller can produce.
- `fullName`, when present, must have length 1 to 1347. A length of at least
  1 is enforced as well as the upper bound. The length is Java's
  `String.length()`, which counts UTF-16 code units, so a character outside
  the Basic Multilingual Plane counts twice.
- "Type greater than" compares whatever order the stored representation has,
  not the enumeration's declaration order.
- On `PUT`, body validation runs while the arguments are bound, before the
  `id < 1` guard in the method body. An invalid body with `id = 0` is
  therefore reported as an invalid body.

## Model

Paths are relative to the repository root, under `src/main/java/com/example/organization/`.

| member | source | states |
|---|---|---|
| `Text.Split` | src/main/java/com/example/organization/service/OrganizationService.java:174 | `split` with no occurrence of the separator gives the whole string (even the empty one), and no part contains the separator. Otherwise the parts are a prefix of the pieces between separators, the last part is non-empty, and every piece dropped after it is empty: only trailing empty parts are removed. |
| `Text.SplitOfJoin` | src/main/java/com/example/organization/service/OrganizationService.java:174-177 | Splitting undoes joining when no piece holds the separator and the last piece is non-empty, or when there is a single piece. This is the round trip that fixes `split`'s trailing-empty rule. |
| `Text.Trim` | src/main/java/com/example/organization/service/OrganizationService.java:179-180 | `trim` returns one contiguous slice of its argument, and every character cut off before or after that slice is at most U+0020. The result is empty exactly when every character is at most U+0020. Otherwise its first and last characters are above U+0020. |
| `Text.TrimIdempotent` | src/main/java/com/example/organization/service/OrganizationService.java:179-180 | Trimming a trimmed string changes nothing. |
| `Text.ReplaceAllRemoves` | src/main/java/com/example/organization/service/OrganizationService.java:183 | After `replace('.', '_')` no `.` is left, and a field without `.` is unchanged. |
| `Text.ReplaceAll` | src/main/java/com/example/organization/service/OrganizationService.java:183 | `replace('.', '_')` keeps the length and changes exactly the positions holding the old character, into the new one. |
| `Text.Lower` | src/main/java/com/example/organization/repository/OrganizationSpecification.java:16-17 | `toLowerCase` keeps the length, folds each character on its own, and leaves no upper-case ASCII letter. |
| `Text.LowerOfLowercase` | src/main/java/com/example/organization/service/OrganizationService.java:180 | Text without upper-case ASCII letters is unchanged by `toLowerCase`, so lower-casing twice is lower-casing once. |
| `Text.Contains` | src/main/java/com/example/organization/repository/OrganizationSpecification.java:16-17 | `contains` holds exactly when the needle is a contiguous slice of the haystack. A needle longer than the haystack is never contained. |
| `Text.Utf16Length` | src/main/java/com/example/organization/dto/OrganizationCreateDTO.java:26 | The length `@Size` measures is between the number of characters and twice that, and equals the number of characters exactly when no character lies outside the Basic Multilingual Plane. |
| `Text.Utf16LengthAppend` | src/main/java/com/example/organization/dto/OrganizationCreateDTO.java:26 | The UTF-16 length of a concatenation is the sum of the lengths. |
| `SortParser.ParseDirection` | src/main/java/com/example/organization/service/OrganizationService.java:180-185 | DESC exactly when the trimmed, lower-cased token equals `desc`. Every other token is ASC. |
| `SortParser.ParseOrder` | src/main/java/com/example/organization/service/OrganizationService.java:177-186 | A segment gives an order exactly when it splits on `,` into two parts. The property it names has no `.` left. |
| `SortParser.ParseSort` | src/main/java/com/example/organization/service/OrganizationService.java:168-191 | An absent or empty string gives unsorted. A sorted result has between one order and as many orders as `;`-segments, and no property contains `.`. |
| `SortParser.ParseSortLoop` | src/main/java/com/example/organization/service/OrganizationService.java:173-190 | The `for` loop that appends one order per well-formed pair computes the same sort as the functional definition. |
| `SortParser.ParseOrdersAppend` | src/main/java/com/example/organization/service/OrganizationService.java:176-187 | Parsing distributes over concatenated segment lists, so orders keep the input order. |
| `SortParser.UnsortedIff` | src/main/java/com/example/organization/service/OrganizationService.java:169-190 | Unsorted exactly when the string is absent or empty, or no segment splits into two parts. |
| `SortParser.NoOrdersIffNoPairParses` | src/main/java/com/example/organization/service/OrganizationService.java:176-190 | No order survives exactly when every segment is dropped. |
| `SortParser.ParseFormatRoundTrip` | src/main/java/com/example/organization/service/OrganizationService.java:174-190 | Formatting any non-empty list of orders as `f,dir;f,dir` and parsing it gives the list back. The fields must hold no separator, no `.` and no blank end. |
| `SortParser.DirectionRoundTrip` | src/main/java/com/example/organization/service/OrganizationService.java:180-185 | The tokens `desc` and `asc` parse to their own direction. |
| `SortParser.ParseOrderOfPair` | src/main/java/com/example/organization/service/OrganizationService.java:177-186 | `field,token` yields the trimmed field with `.` turned into `_`, and the token's direction. |
| `SortParser.ParseOrderTrailingComma` | src/main/java/com/example/organization/service/OrganizationService.java:177-178 | `field,token,` still yields an order, because `split` drops the trailing empty part. |
| `SortParser.ParseOrderRejects` | src/main/java/com/example/organization/service/OrganizationService.java:177-178 | A segment without a comma yields nothing. So does one with two commas whose last part is non-empty, because `split` keeps three parts. |
| `SortParser.ExampleTwoOrders` | src/main/java/com/example/organization/service/OrganizationService.java:168-191 | `name,desc;type,asc` gives DESC on `name`, then ASC on `type`. |
| `SortParser.ExampleNestedField` | src/main/java/com/example/organization/service/OrganizationService.java:183 | `coordinates.x` becomes `coordinates_x`. |
| `SortParser.ExampleOnlySeparator` | src/main/java/com/example/organization/service/OrganizationService.java:174 | A lone `;` splits into no segment at all, so the result is unsorted. |
| `Specification.HasId` | src/main/java/com/example/organization/repository/OrganizationSpecification.java:11-13 | No condition for a null argument. Otherwise exact equality of the key. |
| `Specification.NameLike` | src/main/java/com/example/organization/repository/OrganizationSpecification.java:15-18 | No condition for null. Otherwise the lower-cased name is present and contains the lower-cased argument. |
| `Specification.HasCoordinateX` | src/main/java/com/example/organization/repository/OrganizationSpecification.java:20-23 | No condition for null. Otherwise the coordinates are present and `x` equals the argument. |
| `Specification.HasCoordinateY` | src/main/java/com/example/organization/repository/OrganizationSpecification.java:25-28 | No condition for null. Otherwise the coordinates are present and `y` equals the argument. |
| `Specification.CreatedAfter` | src/main/java/com/example/organization/repository/OrganizationSpecification.java:30-33 | No condition for null. Otherwise creation at or after the instant (inclusive). |
| `Specification.CreatedBefore` | src/main/java/com/example/organization/repository/OrganizationSpecification.java:35-38 | No condition for null. Otherwise creation at or before the instant (inclusive). |
| `Specification.AnnualTurnoverMin` | src/main/java/com/example/organization/repository/OrganizationSpecification.java:40-43 | No condition for null. Otherwise turnover present and at least the bound. |
| `Specification.AnnualTurnoverMax` | src/main/java/com/example/organization/repository/OrganizationSpecification.java:45-48 | No condition for null. Otherwise turnover present and at most the bound. |
| `Specification.FullNameLike` | src/main/java/com/example/organization/repository/OrganizationSpecification.java:50-53 | No condition for null. Otherwise the full name is present and contains the argument, ignoring case. |
| `Specification.EmployeesCountMin` | src/main/java/com/example/organization/repository/OrganizationSpecification.java:55-58 | No condition for null. Otherwise employee count present and at least the bound. |
| `Specification.EmployeesCountMax` | src/main/java/com/example/organization/repository/OrganizationSpecification.java:60-63 | No condition for null. Otherwise employee count present and at most the bound. |
| `Specification.HasType` | src/main/java/com/example/organization/repository/OrganizationSpecification.java:65-68 | No condition for null. Otherwise exact equality of the type. |
| `Specification.StreetLike` | src/main/java/com/example/organization/repository/OrganizationSpecification.java:70-73 | No condition for null. Otherwise the address and street are present and the street contains the argument, ignoring case. |
| `Specification.And` | src/main/java/com/example/organization/service/OrganizationService.java:43-57 | `spec.and(null)` leaves the specification as it was. Otherwise one condition is added, and a row is accepted exactly when the old specification and the new condition both accept it. |
| `Specification.BuildSpec` | src/main/java/com/example/organization/service/OrganizationService.java:43-57 | The thirteen conditional `and` steps add at most thirteen conditions. Which rows the result accepts is stated by `BuildSpecMatches`. |
| `Specification.BuildSpecMatches` | src/main/java/com/example/organization/service/OrganizationService.java:43-57 | The composed specification accepts a row exactly when every supplied filter, read directly off the parameters, accepts it. |
| `Specification.NoFilterMatchesEverything` | src/main/java/com/example/organization/service/OrganizationService.java:43 | With no filter supplied there is no condition, and every row is accepted. |
| `Specification.BuildSpecSize` | src/main/java/com/example/organization/service/OrganizationService.java:45-57 | One condition per supplied parameter and none for absent ones. |
| `Specification.EmptyNameMatchesAll` | src/main/java/com/example/organization/repository/OrganizationSpecification.java:16-17 | The empty name argument (pattern `%%`) matches every row that has a name. |
| `Specification.AbsentColumnsNeverMatch` | src/main/java/com/example/organization/repository/OrganizationSpecification.java:40-53 | A row without turnover fails both turnover bounds. A row without full name fails `fullNameLike`. |
| `Specification.BoundsAreInclusive` | src/main/java/com/example/organization/repository/OrganizationSpecification.java:30-63 | A row lying exactly on a date, turnover or employee-count bound is kept. |
| `Model.ValidDto` | src/main/java/com/example/organization/dto/OrganizationCreateDTO.java:16-38 | The body passes `@Valid` exactly when no constraint reports a violation, counting the ones cascaded into `Coordinates` and `Address`. The body needs a non-blank name, coordinates with `x`, `y` and `y <= 402`, turnover absent or above 0, full name absent or of UTF-16 length 1..1347, employee count present and at least 1, a type, and an address with a non-blank street. |
| `Model.ValidOrganization` | src/main/java/com/example/organization/model/Organization.java:19-55 | Persisting reports nothing exactly when the entity is valid. The entity needs: key at least 1, non-blank name, coordinates and address present, turnover absent or positive, full name absent or of UTF-16 length 1..1347, employee count present and at least 1, and a type. The embedded values are not looked into. |
| `Model.ValidCoordinates` | src/main/java/com/example/organization/model/Coordinates.java:15-20 | `Coordinates` pass their own annotations exactly when they report nothing: `x` and `y` present and `y` at most 402. |
| `Model.ValidAddress` | src/main/java/com/example/organization/model/Address.java:15-16 | An `Address` passes its own annotation exactly when it reports nothing: a non-blank street. |
| `Model.DeeplyValid` | src/main/java/com/example/organization/model/Organization.java:19-55 | An entity is deeply valid exactly when persisting reports nothing and neither embedded value would report anything were validation to cascade into it. |
| `Model.NotBlankHasVisibleChar` | src/main/java/com/example/organization/model/Organization.java:24 | `@NotBlank` holds exactly when the string is present and has a character above U+0020. |
| `Repository.FindById` | src/main/java/com/example/organization/service/OrganizationService.java:82 | A row is found exactly when some row has the key, and the row found is one of the table's rows with that key. |
| `Repository.ExistsById` | src/main/java/com/example/organization/service/OrganizationService.java:124 | `existsById` holds exactly when some row carries the key. |
| `Repository.Insert` | src/main/java/com/example/organization/service/OrganizationService.java:99 | Saving a new entity adds one row that its key finds. Every other key finds what it found before. |
| `Repository.Replace` | src/main/java/com/example/organization/service/OrganizationService.java:117 | Saving a stored entity keeps the table's size and order, and puts the new row at exactly the positions holding its key, every other row staying. |
| `Repository.ReplaceUnique` | src/main/java/com/example/organization/service/OrganizationService.java:117 | Saving a stored entity keeps the keys unique. |
| `Repository.ReplaceFind` | src/main/java/com/example/organization/service/OrganizationService.java:117 | Saving a stored entity makes its key find the new row. Every other key finds what it found before. |
| `Repository.DeleteById` | src/main/java/com/example/organization/service/OrganizationService.java:127 | After `deleteById` the table is the old one filtered by "key differs", in the old order. So the key finds nothing, every other key finds what it did, and no row is new. |
| `Repository.DeleteByIdSize` | src/main/java/com/example/organization/service/OrganizationService.java:127 | With unique keys, deleting a stored key removes exactly one row. |
| `Repository.DeleteByFullName` | src/main/java/com/example/organization/repository/OrganizationRepository.java:18 | Removed rows plus remaining rows make up the table, as a multiset. Every removed row has exactly that full name, and no remaining row has it. |
| `Repository.DeleteByFullNameKeeps` | src/main/java/com/example/organization/repository/OrganizationRepository.java:18 | A row stays exactly when its full name is absent or different, and is returned exactly when it is equal. |
| `Repository.NothingRemovedWithoutMatch` | src/main/java/com/example/organization/repository/OrganizationRepository.java:18 | When no row has the full name, every row remains, in its place. |
| `Repository.Filter` | src/main/java/com/example/organization/repository/OrganizationRepository.java:18 | Filtering keeps exactly the rows that satisfy the condition, and as many as a `COUNT` with that condition reports. |
| `Repository.DeletionIsFilter` | src/main/java/com/example/organization/repository/OrganizationRepository.java:18 | The derived delete is a stable partition: the remaining rows are the table filtered by "full name differs or is absent", the returned rows the table filtered by "full name equals", both in table order. |
| `Repository.DeletedCount` | src/main/java/com/example/organization/service/OrganizationService.java:133-134 | `deleted.size()` is the number of table positions whose full name equals the argument. |
| `Repository.CountIsCardinality` | src/main/java/com/example/organization/repository/OrganizationRepository.java:21-30 | A `COUNT` with a `WHERE` equals the number of positions whose row satisfies it. |
| `Repository.CountByTypeExcludesSameType` | src/main/java/com/example/organization/repository/OrganizationRepository.java:21-22 | Rows of the compared type are never counted. Together with them the count stays within the table size. |
| `Repository.CountByTypeAntitone` | src/main/java/com/example/organization/repository/OrganizationRepository.java:21-22 | Comparing against a higher-ranked type never counts more rows. |
| `Repository.CountByTypeGreaterThan` | src/main/java/com/example/organization/repository/OrganizationRepository.java:21-22 | The count is the number of positions whose present type ranks strictly above the given one, and at most the table size. |
| `Repository.CountWithTurnover` | src/main/java/com/example/organization/repository/OrganizationRepository.java:29-30 | The count is the number of positions whose turnover is not NULL. |
| `Repository.AverageTurnover` | src/main/java/com/example/organization/repository/OrganizationRepository.java:25-26 | The average is NULL exactly when no row has a turnover, and otherwise it is the arithmetic mean of the list of present turnovers. |
| `Repository.PresentTurnovers` | src/main/java/com/example/organization/repository/OrganizationRepository.java:25-30 | The values the `IS NOT NULL` queries see: exactly the turnovers present in some row, as many as `countOrganizationsWithTurnover` reports. |
| `Repository.SumTurnoverIsSum` | src/main/java/com/example/organization/repository/OrganizationRepository.java:25-26 | Adding up the present turnovers row by row is summing the list of them. |
| `Repository.AverageTimesCount` | src/main/java/com/example/organization/repository/OrganizationRepository.java:25-30 | The average, added up once per counted row, gives back the sum of the present turnovers. |
| `Repository.SumBounds` | src/main/java/com/example/organization/repository/OrganizationRepository.java:25-26 | When every present turnover lies in `[lo, hi]`, their sum lies between `n` copies of `lo` and `n` copies of `hi`. |
| `Repository.AverageBounds` | src/main/java/com/example/organization/repository/OrganizationRepository.java:25-26 | The average of the present turnovers lies between any lower and upper bound on them. |
| `Repository.AverageExample` | src/main/java/com/example/organization/repository/OrganizationRepository.java:25-30 | Turnovers 100, NULL and 300 give a count of 2 and an average of exactly 200: the NULL row is skipped by both queries. |
| `Repository.Matching` | src/main/java/com/example/organization/service/OrganizationService.java:65 | `findAll(spec)` selects exactly the rows the specification accepts. There are as many of them as `COUNT` reports. |
| `Service.ToResponse` | src/main/java/com/example/organization/service/OrganizationService.java:154-166 | The response is a lossless copy: the entity can be read back from it, key and creation date included. |
| `Service.ToResponseInjective` | src/main/java/com/example/organization/service/OrganizationService.java:154-166 | Two entities have the same response exactly when they are equal. |
| `Service.ResponseRoundTrip` | src/main/java/com/example/organization/service/OrganizationService.java:154-166 | Every response is the copy of the entity read back from it, so the copy loses nothing and adds nothing. |
| `Service.NewEntity` | src/main/java/com/example/organization/service/OrganizationService.java:89-97 | The built entity carries exactly the body's seven fields, plus the generated key and instant. The body has no field that could set either. |
| `Service.Overwrite` | src/main/java/com/example/organization/service/OrganizationService.java:109-115 | After the seven setters the entity carries the body's fields and keeps its key and creation date. |
| `Service.OverwriteTwice` | src/main/java/com/example/organization/service/OrganizationService.java:109-115 | A second update replaces everything the first one set. |
| `Service.ValidBodyGivesValidEntity` | src/main/java/com/example/organization/dto/OrganizationCreateDTO.java:16-38 | An entity built from a valid body under a positive key passes persist-time validation and the cascaded constraints. |
| `Service.Validate` | src/main/java/com/example/organization/model/Organization.java:21-55 | Persisting rejects an entity exactly when it is not valid, and then reports every violation, a non-empty set. |
| `Service.GetOrganizationById` | src/main/java/com/example/organization/service/OrganizationService.java:80-85 | Fails with `NotFound(id)` exactly when the key is not stored. Otherwise it returns the stored row under that key. |
| `Service.CreateOrganization` | src/main/java/com/example/organization/service/OrganizationService.java:87-102 | Fails only when the built entity violates its annotations, reporting exactly the entity's violations, a non-empty set. Otherwise the table grows by one row under the fresh key, carrying the body and `now`, and every other key is unaffected. |
| `Service.UpdateOrganization` | src/main/java/com/example/organization/service/OrganizationService.java:104-120 | A missing key gives `NotFound(id)`. The call succeeds exactly when the key is stored and the overwritten row passes persist-time validation. A validation failure reports exactly the overwritten row's violations. On success the row under the key gets the body's seven fields and keeps its key and creation date. The table size and every other key are unaffected. |
| `Service.DeleteOrganization` | src/main/java/com/example/organization/service/OrganizationService.java:122-129 | A missing key gives `NotFound(id)`. Otherwise that key is gone and every other key finds what it did. |
| `Service.DeleteByFullNameCount` | src/main/java/com/example/organization/service/OrganizationService.java:131-137 | The count is the number of rows whose full name equals the argument. The remaining rows are a sub-multiset of the table, and the count plus the remaining rows make up the table. A row stays exactly when its full name differs, and no row appears. |
| `Service.PageRequestOf` | src/main/java/com/example/organization/service/OrganizationService.java:59-63 | Page defaults to 0, size to 20, and the sort comes from the sort parser. |
| `Service.Responses` | src/main/java/com/example/organization/service/OrganizationService.java:67-69 | `map(this::toResponseDTO)` gives one response per row, in row order, each the copy of its row. |
| `Service.GetAllOrganizations` | src/main/java/com/example/organization/service/OrganizationService.java:34-69 | A row's response is among the candidates exactly when the row matches every supplied filter. Every candidate is the response of a stored, matching row. |
| `Service.CreatePreservesConsistency` | src/main/java/com/example/organization/service/OrganizationService.java:87-102 | Creating from a valid body always succeeds and keeps keys unique and rows deeply valid. |
| `Service.UpdatePreservesConsistency` | src/main/java/com/example/organization/service/OrganizationService.java:104-120 | An update with a valid body succeeds exactly when the key is stored, and keeps the table consistent. |
| `Service.DeletePreservesConsistency` | src/main/java/com/example/organization/service/OrganizationService.java:122-129 | Deleting by key keeps the table consistent. |
| `Service.DeleteByFullNamePreservesConsistency` | src/main/java/com/example/organization/service/OrganizationService.java:131-137 | The derived delete keeps the table consistent. |
| `Service.CreateThenGet` | src/main/java/com/example/organization/service/OrganizationService.java:80-102 | Reading back a created row by its fresh key returns what creation returned. |
| `Service.CreateThenDelete` | src/main/java/com/example/organization/service/OrganizationService.java:87-129 | Deleting a row just created restores every lookup of the original table. |
| `Controller.GetById` | src/main/java/com/example/organization/controller/OrganizationController.java:54-62 | An id below 1 is refused whatever the table holds. The call succeeds exactly when the id is at least 1 and the key is stored; otherwise `Missing`, and `Ok` carries the stored row. |
| `Controller.Create` | src/main/java/com/example/organization/controller/OrganizationController.java:64-69 | An invalid body is refused with its non-empty violations and the table unchanged. A valid one always succeeds and stores the new row under the fresh key. |
| `Controller.Update` | src/main/java/com/example/organization/controller/OrganizationController.java:71-80 | Body validation comes first, then the id guard, then `Missing`. The call succeeds exactly when the body is valid, the id is at least 1 and the key is stored. A persist-time rejection cannot happen. A failure leaves the table unchanged. Success overwrites only that row. |
| `Controller.ValidUpdateNeverRejected` | src/main/java/com/example/organization/controller/OrganizationController.java:71-80 | With a valid body and a positive key, the service can only fail with `NotFound`. |
| `Controller.Delete` | src/main/java/com/example/organization/controller/OrganizationController.java:82-90 | An id below 1 is refused before the existence check. The call succeeds exactly for a stored positive key. Failure leaves the table unchanged. |
| `Controller.DeleteByFullName` | src/main/java/com/example/organization/controller/OrganizationController.java:92-102 | Always answers. The name is echoed, the reported count is the number of rows whose full name equals it, the remaining rows are a sub-multiset of the table, and the count plus the remaining rows make up the table. |
| `Controller.AverageTurnover` | src/main/java/com/example/organization/controller/OrganizationController.java:104-114 | The count is the number of rows with a turnover, the average is the arithmetic mean of the present turnovers, and it is absent exactly when the count is 0. |
| `Controller.CountByTypeGreater` | src/main/java/com/example/organization/controller/OrganizationController.java:116-126 | Echoes the compared type. The count is the number of rows ranked strictly above it, and at most the table size. |
| `Controller.InvalidIdBeforeLookup` | src/main/java/com/example/organization/controller/OrganizationController.java:54-90 | For an id below 1, get and delete answer `InvalidId` whatever the table holds, and delete leaves it unchanged. |
| `Controller.InvalidIdAfterValidBody` | src/main/java/com/example/organization/controller/OrganizationController.java:71-77 | For a valid body and an id below 1, update answers `InvalidId` whatever the table holds, and leaves it unchanged. |
| `Controller.InvalidBodyBeforeIdGuard` | src/main/java/com/example/organization/controller/OrganizationController.java:71-77 | An invalid body is reported, with non-empty violations, even when the id would be refused. |
| `Controller.ReportedAverageBounds` | src/main/java/com/example/organization/controller/OrganizationController.java:104-111 | The reported average lies between any bounds on the present turnovers. |
| `Controller.WritesPreserveConsistency` | src/main/java/com/example/organization/controller/OrganizationController.java:64-102 | Every writing endpoint keeps unique keys and deeply valid rows, whatever the request. |
| `Controller.ReadRowsAreValid` | src/main/java/com/example/organization/model/Organization.java:19-55 | Every row read from a table the controller produced has a positive key (by the key-generation assumption under "Left out") and satisfies every entity and embedded constraint. |

## Left out

- `config/CorsFilter.java`: HTTP header plumbing with no logic of its own.
- Paging and ordering of the list: applying the parsed sort to the rows, the offset/limit slice, `totalElements` and `totalPages` are library code. `Service.GetAllOrganizations` gives the matching rows in table order plus the page request that the library would apply.
- `PageRequest.of` argument checks (negative page, size below 1) and `Sort.Order`'s refusal of an empty property name (`" ,asc"` parses to an empty field here) are library checks. They are not modelled.
- Key generation (`@GeneratedValue`), the clock behind `@CreationTimestamp`, `@Transactional` boundaries and logging: the fresh key and the instant are parameters. A failed call returns the old table, which stands for the rollback.
- The database is assumed to hand out a key that is at least 1 and not already used: `Service.CreateOrganization`, `Controller.Create` and `Controller.WritesPreserveConsistency` require it of `freshId`. With `GenerationType.IDENTITY` the entity is validated while its id is still null, and `@Min(1)` accepts null, so the source itself never checks the key on create. The positive-key part of `Service.Consistent` and `Controller.ReadRowsAreValid` rests on this assumption, not on bean validation.
- `GET /average-turnover` reads the average and the count in two separate read-only transactions. `Controller.AverageTurnover` computes both on one table, so "absent exactly when the count is 0" assumes no write lands between the two reads.
- `Double` arithmetic and the SQL `AVG`: turnovers are exact `real`s. The average is the exact mean, and rounding is not modelled.
- `Long`/`Integer` widths: ids, counts and coordinates are unbounded integers. Overflow and the `int` width of the delete count are not modelled.
- LIKE wildcards: `%` and `_` in a user's filter string are not escaped by the source. The model treats the argument as a plain substring. `toLowerCase` is ASCII-only here, not locale-dependent Unicode folding.
- The HTTP status of each failure, and request-parameter binding (e.g. an unknown `type` name or a malformed date), belong to an exception handler and to Spring. Neither is part of this model.
- `OrganizationType`'s constants: its source is not part of this model, so a type is just its stored name and the order is the `rank` parameter.
- Database column constraints other than NOT NULL (for example the column length of `fullName`) are covered only as far as the bean-validation annotations restate them.

=== FILE: controller.dfy ===
/**
 The REST controller: which answer each endpoint gives and what it leaves
 in the table.

 Three failures are raised before or instead of the service's work: an
 invalid request body (`@Valid`, checked while the arguments are bound, so
 before the method body runs), the `id < 1` guard, and the service's
 `NotFound`. A failed exchange never changes the table. The mapping of
 these failures to HTTP status codes is done by an exception handler that is
 not part of this model.
 */
module Controller {
  import opened Wrappers
  import opened Model
  import opened Repository
  import opened Service

  /** What an endpoint answers. */
  datatype Reply<T> =
    | Ok(value: T)
      /** The `id < 1` guard. */
    | InvalidId(id: int)
      /** `@Valid` on the request body failed. */
    | InvalidBody(violations: set<Violation>)
    | Missing(id: int)
      /** Persisting failed validation; the lemmas below show a valid body never gets here. */
    | Rejected(violations: set<Violation>)

  /** An answer together with the table after the request. */
  datatype Exchange<T> = Exchange(reply: Reply<T>, store: Store)

  /** The empty `204 No Content` body. */
  datatype NoContent = NoContent

  /** The map answered by `DELETE /by-full-name/{fullName}`. */
  datatype DeletedReport = DeletedReport(deletedCount: int, fullName: string)

  /** The map answered by `GET /average-turnover`. */
  datatype TurnoverReport = TurnoverReport(averageAnnualTurnover: Option<real>, count: int)

  /** The map answered by `GET /count-by-type-greater/{type}`. */
  datatype TypeCountReport = TypeCountReport(count: int, comparedType: OrgType)

  /** Turns a service failure into the controller's answer. */
  function Fail<T>(f: Failure): Reply<T> {
    match f
    case NotFound(id) => Missing(id)
    case ConstraintViolation(v) => Rejected(v)
  }

  /* ------------------------------------------------------------ endpoints */

  /** `GET /{id}`. */
  function GetById(s: Store, id: int): (r: Reply<OrganizationResponse>)
    ensures id < MinId ==> r == InvalidId(id)
    ensures id >= MinId ==> (r.Missing? <==> !ExistsById(s, id))
    ensures r.Ok? <==> id >= MinId && ExistsById(s, id)
    ensures r.Missing? ==> r.id == id
    ensures r.Ok? ==> id >= MinId && FindById(s, id) == Some(EntityOf(r.value))
    ensures r.Ok? || r.InvalidId? || r.Missing?
  {
    if id < MinId then InvalidId(id)
    else
      match GetOrganizationById(s, id)
      case Success(resp) =>
        FindByIdOfResponse(s, id, resp);
        Ok(resp)
      case Failed(f) => Fail(f)
  }

  lemma FindByIdOfResponse(s: Store, id: int, resp: OrganizationResponse)
    requires GetOrganizationById(s, id) == Success(resp)
    ensures FindById(s, id) == Some(EntityOf(resp))
  {
  }

  /** `POST /`: an invalid body is refused; a valid one is stored under the fresh key. */
  function Create(s: Store, d: OrganizationCreateDto, freshId: int, now: Timestamp): (r: Exchange<OrganizationResponse>)
    requires freshId >= MinId && !ExistsById(s, freshId)
    ensures r.reply.InvalidBody? <==> !ValidDto(d)
    ensures r.reply.InvalidBody? ==> r.reply.violations == DtoViolations(d) && r.reply.violations != {}
    ensures r.reply.Ok? <==> ValidDto(d)
    ensures !r.reply.Ok? ==> r.store == s
    ensures r.reply.Ok? ==>
      && FindById(r.store, freshId) == Some(NewEntity(d, freshId, now))
      && (forall k :: k != freshId ==> FindById(r.store, k) == FindById(s, k))
      && EntityOf(r.reply.value) == NewEntity(d, freshId, now)
  {
    if !ValidDto(d) then Exchange(InvalidBody(DtoViolations(d)), s)
    else
      ValidBodyGivesValidEntity(d, NewEntity(d, freshId, now));
      match CreateOrganization(s, d, freshId, now)
      case Success(w) => Exchange(Ok(w.response), w.store)
      case Failed(f) => Exchange(Fail(f), s)
  }

  /**
   `PUT /{id}`: the body is validated first, then the id guard runs, then
   the lookup; only a valid body for a stored key changes the table.
   */
  function Update(s: Store, id: int, d: OrganizationCreateDto): (r: Exchange<OrganizationResponse>)
    ensures !ValidDto(d) ==> r.reply == InvalidBody(DtoViolations(d))
    ensures ValidDto(d) && id < MinId ==> r.reply == InvalidId(id)
    ensures ValidDto(d) && id >= MinId && !ExistsById(s, id) ==> r.reply == Missing(id)
    ensures !r.reply.Rejected?
    ensures r.reply.Ok? <==> ValidDto(d) && id >= MinId && ExistsById(s, id)
    ensures !r.reply.Ok? ==> r.store == s
    ensures r.reply.Ok? ==>
      && ValidDto(d) && id >= MinId && ExistsById(s, id)
      && FindById(r.store, id) == Some(Overwrite(FindById(s, id).value, d))
      && (forall k :: k != id ==> FindById(r.store, k) == FindById(s, k))
      && EntityOf(r.reply.value) == Overwrite(FindById(s, id).value, d)
  {
    if !ValidDto(d) then Exchange(InvalidBody(DtoViolations(d)), s)
    else if id < MinId then Exchange(InvalidId(id), s)
    else
      match UpdateOrganization(s, id, d)
      case Success(w) =>
        EntityDeterminedByBody(FindById(w.store, id).value, Overwrite(FindById(s, id).value, d));
        Exchange(Ok(w.response), w.store)
      case Failed(f) =>
        ValidUpdateNeverRejected(s, id, d);
        Exchange(Fail(f), s)
  }

  /** With a valid body and a positive key, an update can only fail by not finding the key. */
  lemma ValidUpdateNeverRejected(s: Store, id: int, d: OrganizationCreateDto)
    requires ValidDto(d) && id >= MinId
    ensures UpdateOrganization(s, id, d).Failed? ==> UpdateOrganization(s, id, d).failure == NotFound(id)
  {
    if ExistsById(s, id) {
      ValidBodyGivesValidEntity(d, Overwrite(FindById(s, id).value, d));
    }
  }

  /** `DELETE /{id}`: the guard runs before the existence check. */
  function Delete(s: Store, id: int): (r: Exchange<NoContent>)
    ensures id < MinId ==> r.reply == InvalidId(id)
    ensures id >= MinId && !ExistsById(s, id) ==> r.reply == Missing(id)
    ensures r.reply.Ok? <==> id >= MinId && ExistsById(s, id)
    ensures !r.reply.Ok? ==> r.store == s
    ensures r.reply.Ok? ==>
      && !ExistsById(r.store, id)
      && (forall k :: k != id ==> FindById(r.store, k) == FindById(s, k))
  {
    if id < MinId then Exchange(InvalidId(id), s)
    else
      match DeleteOrganization(s, id)
      case Success(t) => Exchange(Ok(NoContent), t)
      case Failed(f) => Exchange(Fail(f), s)
  }

  /** `DELETE /by-full-name/{fullName}`: always answers, with the count and the name echoed. */
  function DeleteByFullName(s: Store, fullName: string): (r: Exchange<DeletedReport>)
    ensures r.reply.Ok? && r.reply.value.fullName == fullName
    ensures r.reply.value.deletedCount + |r.store| == |s|
    ensures r.reply.value.deletedCount == |set i | 0 <= i < |s| && s[i].fullName == Some(fullName)|
    ensures multiset(r.store) <= multiset(s)
    ensures forall o :: o in s ==> (o in r.store <==> o.fullName != Some(fullName))
    ensures forall o :: o in r.store ==> o in s
  {
    var p := DeleteByFullNameCount(s, fullName);
    Exchange(Ok(DeletedReport(p.count, fullName)), p.store)
  }

  /** `GET /average-turnover`: the average of the present turnovers next to how many there are. */
  function AverageTurnover(s: Store): (r: Reply<TurnoverReport>)
    ensures r.Ok?
    ensures r.value.count == |set i | 0 <= i < |s| && HasTurnover(s[i])|
    ensures r.value.averageAnnualTurnover.None? <==> r.value.count == 0
    ensures r.value.averageAnnualTurnover == Mean(PresentTurnovers(s))
    ensures r.value.count == |PresentTurnovers(s)|
  {
    Ok(TurnoverReport(Repository.AverageTurnover(s), CountWithTurnover(s)))
  }

  /** `GET /count-by-type-greater/{type}`: the count with the compared type echoed. */
  function CountByTypeGreater(s: Store, t: OrgType, rank: OrgType -> int): (r: Reply<TypeCountReport>)
    ensures r.Ok? && r.value.comparedType == t
    ensures r.value.count == |set i | 0 <= i < |s| && TypeGreater(s[i], t, rank)|
    ensures r.value.count <= |s|
  {
    Ok(TypeCountReport(CountByTypeGreaterThan(s, t, rank), t))
  }

  /* --------------------------------------------------------------- lemmas */

  /** An id below 1 is refused by get and delete before the table is consulted, whatever it holds. */
  lemma InvalidIdBeforeLookup(s: Store, t: Store, id: int)
    requires id < MinId
    ensures GetById(s, id) == GetById(t, id) == InvalidId(id)
    ensures Delete(s, id).reply == Delete(t, id).reply == InvalidId(id)
    ensures Delete(s, id).store == s
  {
  }

  /** On `PUT` the id guard comes after body validation: a valid body with an id below 1 is refused whatever the table holds. */
  lemma InvalidIdAfterValidBody(s: Store, t: Store, id: int, d: OrganizationCreateDto)
    requires id < MinId && ValidDto(d)
    ensures Update(s, id, d).reply == Update(t, id, d).reply == InvalidId(id)
    ensures Update(s, id, d).store == s
  {
  }

  /** An invalid body is reported whatever the id, even one the guard would refuse. */
  lemma InvalidBodyBeforeIdGuard(s: Store, id: int, d: OrganizationCreateDto)
    requires !ValidDto(d)
    ensures Update(s, id, d).reply.InvalidBody?
    ensures Update(s, id, d).reply.violations != {}
  {
  }

  /** The average reported lies between the least and greatest present turnover. */
  lemma ReportedAverageBounds(s: Store, lo: real, hi: real)
    requires TurnoversWithin(s, lo, hi)
    requires AverageTurnover(s).value.count > 0
    ensures lo <= AverageTurnover(s).value.averageAnnualTurnover.value <= hi
  {
    Repository.AverageBounds(s, lo, hi);
  }

  /** Every endpoint that writes keeps a consistent table consistent. */
  lemma WritesPreserveConsistency(s: Store, d: OrganizationCreateDto, freshId: int, now: Timestamp, id: int, fullName: string)
    requires Consistent(s)
    requires freshId >= MinId && !ExistsById(s, freshId)
    ensures Consistent(Create(s, d, freshId, now).store)
    ensures Consistent(Update(s, id, d).store)
    ensures Consistent(Delete(s, id).store)
    ensures Consistent(DeleteByFullName(s, fullName).store)
  {
    if ValidDto(d) {
      CreatePreservesConsistency(s, d, freshId, now);
      UpdatePreservesConsistency(s, id, d);
    }
    DeletePreservesConsistency(s, id);
    DeleteByFullNamePreservesConsistency(s, fullName);
  }

  /** Rows read from a consistent table satisfy every constraint of the entity and its embedded values. */
  lemma ReadRowsAreValid(s: Store, id: int)
    requires Consistent(s)
    requires GetById(s, id).Ok?
    ensures DeeplyValid(EntityOf(GetById(s, id).value))
    ensures GetById(s, id).value.id >= MinId
  {
  }
}

=== FILE: model.dfy ===
/**
 The persisted `Organization` entity, its two embedded value types
 (`Coordinates`, `Address`), the create/update request body and the
 bean-validation rules the annotations on them impose.

 Every Java field that may hold `null` is an `Option`; the validity
 predicates say which of them must be present. `Double` becomes `real`,
 `Integer`/`Long` become `int`, and `LocalDateTime` an abstract ordered instant.
 */
module Model {
  import opened Wrappers
  import Text

  /** A `LocalDateTime`, only ever compared and copied. */
  type Timestamp = int

  /**
   An `OrganizationType` constant. It is persisted by name, so the model keeps
   only the name; the order used by "greater than" is a parameter of the queries
   that need it, not the declaration order.
   */
  datatype OrgType = OrgType(name: string)

  datatype Coordinates = Coordinates(x: Option<real>, y: Option<int>)

  datatype Address = Address(street: Option<string>)

  datatype Organization = Organization(
    id: int,
    name: Option<string>,
    coordinates: Option<Coordinates>,
    creationDate: Timestamp,
    annualTurnover: Option<real>,
    fullName: Option<string>,
    employeesCount: Option<int>,
    orgType: Option<OrgType>,
    officialAddress: Option<Address>)

  /** The create/update request body: the entity minus `id` and `creationDate`. */
  datatype OrganizationCreateDto = OrganizationCreateDto(
    name: Option<string>,
    coordinates: Option<Coordinates>,
    annualTurnover: Option<real>,
    fullName: Option<string>,
    employeesCount: Option<int>,
    orgType: Option<OrgType>,
    officialAddress: Option<Address>)

  const MinId := 1
  const MaxCoordinateY := 402
  const MinFullNameLength := 1
  const MaxFullNameLength := 1347
  const MinEmployeesCount := 1

  /** One failed constraint, named after the annotation's message. */
  datatype Violation =
    | IdTooSmall
    | NameBlank
    | CoordinatesNull
    | CoordinateXNull
    | CoordinateYNull
    | CoordinateYTooLarge
    | TurnoverNotPositive
    | FullNameSize
    | EmployeesCountNull
    | EmployeesCountTooSmall
    | TypeNull
    | AddressNull
    | StreetBlank

  /* ------------------------------------------------ single constraints */

  /** `@NotBlank`: present, and something is left after `trim`. */
  predicate NotBlank(s: Option<string>) {
    s.Some? && !Text.IsBlank(s.value)
  }

  /** `@DecimalMin(value = "0.0", inclusive = false)`: null passes. */
  predicate PositiveIfPresent(v: Option<real>) {
    v.None? || v.value > 0.0
  }

  /** `@Size(min = 1, max = 1347)` on a string, measured in UTF-16 code units: null passes. */
  predicate FullNameSizeOk(s: Option<string>) {
    s.None? || MinFullNameLength <= Text.Utf16Length(s.value) <= MaxFullNameLength
  }

  /** `@Min(1)`: null passes. */
  predicate AtLeastOneIfPresent(n: Option<int>) {
    n.None? || n.value >= MinEmployeesCount
  }

  /* ---------------------------------------------- collected violations */

  /** The violation `v`, reported when `c` holds. */
  function When(c: bool, v: Violation): set<Violation> {
    if c then {v} else {}
  }

  /** The constraints declared on `Coordinates` (checked only where `@Valid` cascades). */
  function CoordinatesViolations(c: Coordinates): set<Violation> {
    When(c.x.None?, CoordinateXNull)
    + When(c.y.None?, CoordinateYNull)
    + When(c.y.Some? && c.y.value > MaxCoordinateY, CoordinateYTooLarge)
  }

  /** The constraint declared on `Address` (checked only where `@Valid` cascades). */
  function AddressViolations(a: Address): set<Violation> {
    When(!NotBlank(a.street), StreetBlank)
  }

  /**
   What bean validation of the request body reports: the DTO's own
   annotations, plus those of `Coordinates` and `Address`, into which `@Valid`
   cascades when they are present.
   */
  function DtoViolations(d: OrganizationCreateDto): set<Violation> {
    When(!NotBlank(d.name), NameBlank)
    + When(d.coordinates.None?, CoordinatesNull)
    + (if d.coordinates.Some? then CoordinatesViolations(d.coordinates.value) else {})
    + When(!PositiveIfPresent(d.annualTurnover), TurnoverNotPositive)
    + When(!FullNameSizeOk(d.fullName), FullNameSize)
    + When(d.employeesCount.None?, EmployeesCountNull)
    + When(!AtLeastOneIfPresent(d.employeesCount), EmployeesCountTooSmall)
    + When(d.orgType.None?, TypeNull)
    + When(d.officialAddress.None?, AddressNull)
    + (if d.officialAddress.Some? then AddressViolations(d.officialAddress.value) else {})
  }

  /**
   What persisting the entity rejects: its bean-validation annotations and its
   NOT NULL columns. The embedded `coordinates` and `officialAddress` carry
   `@NotNull` but not `@Valid`, so their own constraints are not re-checked here.
   */
  function EntityViolations(o: Organization): set<Violation> {
    When(o.id < MinId, IdTooSmall)
    + When(!NotBlank(o.name), NameBlank)
    + When(o.coordinates.None?, CoordinatesNull)
    + When(!PositiveIfPresent(o.annualTurnover), TurnoverNotPositive)
    + When(!FullNameSizeOk(o.fullName), FullNameSize)
    + When(o.employeesCount.None?, EmployeesCountNull)
    + When(!AtLeastOneIfPresent(o.employeesCount), EmployeesCountTooSmall)
    + When(o.orgType.None?, TypeNull)
    + When(o.officialAddress.None?, AddressNull)
  }

  /* ------------------------------------------------ validity predicates */

  /** `Coordinates` that pass their own annotations: exactly those for which they report nothing. */
  predicate ValidCoordinates(c: Coordinates): (b: bool)
    ensures b <==> CoordinatesViolations(c) == {}
  {
    c.x.Some? && c.y.Some? && c.y.value <= MaxCoordinateY
  }

  /** An `Address` that passes its own annotation: exactly one for which it reports nothing. */
  predicate ValidAddress(a: Address): (b: bool)
    ensures b <==> AddressViolations(a) == {}
  {
    NotBlank(a.street)
  }

  /** A request body that passes `@Valid`: exactly the bodies for which validation reports nothing. */
  predicate ValidDto(d: OrganizationCreateDto): (b: bool)
    ensures b <==> DtoViolations(d) == {}
  {
    && NotBlank(d.name)
    && d.coordinates.Some? && ValidCoordinates(d.coordinates.value)
    && PositiveIfPresent(d.annualTurnover)
    && FullNameSizeOk(d.fullName)
    && d.employeesCount.Some? && d.employeesCount.value >= MinEmployeesCount
    && d.orgType.Some?
    && d.officialAddress.Some? && ValidAddress(d.officialAddress.value)
  }

  /** An entity that can be persisted: exactly the entities for which persisting reports nothing. */
  predicate ValidOrganization(o: Organization): (b: bool)
    ensures b <==> EntityViolations(o) == {}
  {
    && o.id >= MinId
    && NotBlank(o.name)
    && o.coordinates.Some?
    && PositiveIfPresent(o.annualTurnover)
    && FullNameSizeOk(o.fullName)
    && o.employeesCount.Some? && o.employeesCount.value >= MinEmployeesCount
    && o.orgType.Some?
    && o.officialAddress.Some?
  }

  /**
   An entity whose embedded values also satisfy their own annotations: nothing
   is reported by persisting, nor by the constraints of `Coordinates` and
   `Address` were validation to cascade into them.
   */
  predicate DeeplyValid(o: Organization): (b: bool)
    ensures b <==> && EntityViolations(o) == {}
                   && (o.coordinates.Some? ==> CoordinatesViolations(o.coordinates.value) == {})
                   && (o.officialAddress.Some? ==> AddressViolations(o.officialAddress.value) == {})
  {
    && ValidOrganization(o)
    && ValidCoordinates(o.coordinates.value)
    && ValidAddress(o.officialAddress.value)
  }

  /* ------------------------------------------------------------- lemmas */

  /** A non-blank string has a character beyond U+0020 somewhere in it. */
  lemma NotBlankHasVisibleChar(s: Option<string>)
    ensures NotBlank(s) <==> s.Some? && exists i :: 0 <= i < |s.value| && !Text.Strippable(s.value[i])
  {
  }
}

=== FILE: repository.dfy ===
/**
 The repository over the `organizations` table, as pure functions on the
 table's rows in insertion order: lookup by id, the two saves, the deletes,
 the derived `deleteByFullName` query, the two counting queries, the
 average-turnover query, and the rows a specification selects.
 */
module Repository {
  import opened Wrappers
  import opened Model
  import Specification

  /** The table: its rows in insertion order. */
  type Store = seq<Organization>

  /** Primary-key uniqueness. */
  predicate UniqueIds(s: Store) {
    forall i, j :: 0 <= i < |s| && 0 <= j < |s| && s[i].id == s[j].id ==> i == j
  }

  /** `findById`: the row with the given key, if any. */
  function FindById(s: Store, id: int): (r: Option<Organization>)
    ensures r.Some? <==> exists i :: 0 <= i < |s| && s[i].id == id
    ensures r.Some? ==> r.value in s && r.value.id == id
    decreases |s|
  {
    if |s| == 0 then None
    else if s[0].id == id then Some(s[0])
    else
      var r := FindById(s[1..], id);
      assert forall i :: 1 <= i < |s| ==> s[i] == s[1..][i - 1];
      r
  }

  /** `existsById`: some row carries the key. */
  predicate ExistsById(s: Store, id: int): (b: bool)
    ensures b <==> exists i :: 0 <= i < |s| && s[i].id == id
  {
    FindById(s, id).Some?
  }

  /** `save` of a new entity: the row is added after the existing ones. */
  function Insert(s: Store, o: Organization): (r: Store)
    requires !ExistsById(s, o.id)
    ensures |r| == |s| + 1
    ensures FindById(r, o.id) == Some(o)
    ensures forall id :: id != o.id ==> FindById(r, id) == FindById(s, id)
  {
    InsertFind(s, o);
    s + [o]
  }

  lemma {:induction false} InsertFind(s: Store, o: Organization)
    requires !ExistsById(s, o.id)
    ensures FindById(s + [o], o.id) == Some(o)
    ensures forall id :: id != o.id ==> FindById(s + [o], id) == FindById(s, id)
    decreases |s|
  {
    if |s| > 0 {
      assert (s + [o])[1..] == s[1..] + [o];
      InsertFind(s[1..], o);
    }
  }

  /** `save` of an entity already stored: the row with its key is overwritten in place. */
  function Replace(s: Store, o: Organization): (r: Store)
    ensures |r| == |s|
    ensures forall i :: 0 <= i < |s| ==> r[i] == (if s[i].id == o.id then o else s[i])
    decreases |s|
  {
    if |s| == 0 then []
    else [if s[0].id == o.id then o else s[0]] + Replace(s[1..], o)
  }

  /** After a replace, the key finds the new row and every other key finds what it did before. */
  lemma {:induction false} ReplaceFind(s: Store, o: Organization)
    requires ExistsById(s, o.id)
    ensures FindById(Replace(s, o), o.id) == Some(o)
    ensures forall id :: id != o.id ==> FindById(Replace(s, o), id) == FindById(s, id)
    decreases |s|
  {
    var r := Replace(s, o);
    assert r[1..] == Replace(s[1..], o);
    if s[0].id != o.id {
      ReplaceFind(s[1..], o);
    } else if ExistsById(s[1..], o.id) {
      ReplaceFind(s[1..], o);
    } else {
      ReplaceAbsent(s[1..], o);
    }
  }

  /** Overwriting in place keeps the keys unique. */
  lemma ReplaceUnique(s: Store, o: Organization)
    requires UniqueIds(s)
    ensures UniqueIds(Replace(s, o))
  {
    var t := Replace(s, o);
    assert forall i :: 0 <= i < |s| ==> t[i].id == s[i].id;
  }

  /** Every row after an overwrite is the new row or an old one. */
  lemma ReplaceRows(s: Store, o: Organization)
    ensures forall x :: x in Replace(s, o) ==> x in s + [o]
  {
    var t := Replace(s, o);
    forall x | x in t ensures x in s + [o] {
      var i :| 0 <= i < |t| && t[i] == x;
      assert x == s[i] || x == o;
    }
  }

  /** Replacing a key that is not stored changes nothing. */
  lemma ReplaceAbsent(s: Store, o: Organization)
    requires !ExistsById(s, o.id)
    ensures Replace(s, o) == s
  {
    var r := Replace(s, o);
    assert forall i :: 0 <= i < |s| ==> s[i].id != o.id;
  }

  /** The condition `deleteById` keeps a row under: a key other than `id`. */
  function KeyOtherThan(id: int): Organization -> bool {
    (o: Organization) => o.id != id
  }

  /** `deleteById`: every row with the key is removed, the others keep their order. */
  function DeleteById(s: Store, id: int): (r: Store)
    ensures r == Filter(s, KeyOtherThan(id))
    ensures FindById(r, id) == None
    ensures forall k :: k != id ==> FindById(r, k) == FindById(s, k)
    ensures forall o :: o in r ==> o in s
    decreases |s|
  {
    if |s| == 0 then []
    else
      var rest := DeleteById(s[1..], id);
      FilterPrepend(s[0], s[1..], KeyOtherThan(id));
      assert [s[0]] + s[1..] == s;
      if s[0].id == id then rest
      else
        var r := [s[0]] + rest;
        assert r[1..] == rest;
        r
  }

  /** With unique keys, deleting a stored key removes exactly one row. */
  lemma {:induction false} DeleteByIdSize(s: Store, id: int)
    requires UniqueIds(s)
    ensures |DeleteById(s, id)| == |s| - (if ExistsById(s, id) then 1 else 0)
    decreases |s|
  {
    if |s| > 0 {
      UniqueTail(s);
      if s[0].id == id {
        assert forall i :: 0 <= i < |s[1..]| ==> s[1..][i].id != id by {
          forall i | 0 <= i < |s[1..]| ensures s[1..][i].id != id {
            assert s[1..][i] == s[i + 1];
          }
        }
        DeleteByIdSize(s[1..], id);
      } else {
        DeleteByIdSize(s[1..], id);
      }
    }
  }

  /** Deleting by key keeps the keys unique. */
  lemma {:induction false} DeleteByIdUnique(s: Store, id: int)
    requires UniqueIds(s)
    ensures UniqueIds(DeleteById(s, id))
    decreases |s|
  {
    if |s| > 0 {
      UniqueTail(s);
      DeleteByIdUnique(s[1..], id);
      if s[0].id != id {
        var rest := DeleteById(s[1..], id);
        FirstKeyNotInTail(s);
        assert forall o :: o in rest ==> o in s[1..];
        PrependUnique(s[0], rest);
      }
    }
  }

  /** With unique keys, the first row's key occurs nowhere after it. */
  lemma FirstKeyNotInTail(s: Store)
    requires UniqueIds(s) && |s| > 0
    ensures forall o :: o in s[1..] ==> o.id != s[0].id
  {
    forall o | o in s[1..] ensures o.id != s[0].id {
      var k :| 0 <= k < |s[1..]| && s[1..][k] == o;
      assert s[k + 1] == o;
    }
  }

  /** Adding a row under a new key keeps the keys unique. */
  lemma InsertUnique(s: Store, o: Organization)
    requires UniqueIds(s) && !ExistsById(s, o.id)
    ensures UniqueIds(Insert(s, o))
  {
    var t := Insert(s, o);
    assert t == s + [o];
    assert forall k :: 0 <= k < |s| ==> t[k] == s[k] && s[k].id != o.id;
    forall i, j | 0 <= i < |t| && 0 <= j < |t| && t[i].id == t[j].id ensures i == j {
      if i < |s| && j < |s| {
        assert t[i] == s[i] && t[j] == s[j];
      }
    }
  }

  /** Putting a row with a new key in front keeps the keys unique. */
  lemma PrependUnique(o: Organization, rest: Store)
    requires UniqueIds(rest)
    requires forall p :: p in rest ==> p.id != o.id
    ensures UniqueIds([o] + rest)
  {
    var r := [o] + rest;
    assert forall k :: 1 <= k < |r| ==> r[k] == rest[k - 1] && r[k].id != o.id;
    forall i, j | 0 <= i < |r| && 0 <= j < |r| && r[i].id == r[j].id ensures i == j {
      if i > 0 && j > 0 {
        assert r[i] == rest[i - 1] && r[j] == rest[j - 1];
      }
    }
  }

  lemma UniqueTail(s: Store)
    requires UniqueIds(s) && |s| > 0
    ensures UniqueIds(s[1..])
  {
    forall i, j | 0 <= i < |s[1..]| && 0 <= j < |s[1..]| && s[1..][i].id == s[1..][j].id
      ensures i == j
    {
      assert s[1..][i] == s[i + 1] && s[1..][j] == s[j + 1];
    }
  }

  /* -------------------------------------------------- deleteByFullName */

  /** The rows a derived delete leaves and the rows it returns. */
  datatype Deletion = Deletion(remaining: Store, deleted: seq<Organization>)

  /**
   `deleteByFullName`: removes and returns every row whose full name equals
   the argument exactly; rows with another or no full name stay, in order.
   */
  function DeleteByFullName(s: Store, fullName: string): (r: Deletion)
    ensures |r.remaining| + |r.deleted| == |s|
    ensures multiset(r.remaining) + multiset(r.deleted) == multiset(s)
    ensures forall o :: o in r.deleted ==> o.fullName == Some(fullName)
    ensures forall o :: o in r.remaining ==> o.fullName != Some(fullName)
    decreases |s|
  {
    if |s| == 0 then Deletion([], [])
    else
      var rest := DeleteByFullName(s[1..], fullName);
      assert s == [s[0]] + s[1..];
      if s[0].fullName == Some(fullName) then Deletion(rest.remaining, [s[0]] + rest.deleted)
      else Deletion([s[0]] + rest.remaining, rest.deleted)
  }

  /** The rows left by a derived delete keep their keys unique. */
  lemma {:induction false} RemainingUnique(s: Store, fullName: string)
    requires UniqueIds(s)
    ensures UniqueIds(DeleteByFullName(s, fullName).remaining)
    decreases |s|
  {
    if |s| > 0 {
      UniqueTail(s);
      RemainingUnique(s[1..], fullName);
      if s[0].fullName != Some(fullName) {
        var d := DeleteByFullName(s[1..], fullName);
        var rest := d.remaining;
        FirstKeyNotInTail(s);
        forall o | o in rest ensures o in s[1..] {
          assert o in multiset(rest);
          assert multiset(rest) + multiset(d.deleted) == multiset(s[1..]);
          assert o in multiset(s[1..]);
        }
        PrependUnique(s[0], rest);
      }
    }
  }

  /** A row survives exactly when its full name is absent or different. */
  lemma DeleteByFullNameKeeps(s: Store, fullName: string, o: Organization)
    requires o in s
    ensures o in DeleteByFullName(s, fullName).remaining <==> o.fullName != Some(fullName)
    ensures o in DeleteByFullName(s, fullName).deleted <==> o.fullName == Some(fullName)
  {
    var r := DeleteByFullName(s, fullName);
    assert o in multiset(s);
  }

  /** When no row has the full name, every row remains, in its place. */
  lemma {:induction false} NothingRemovedWithoutMatch(s: Store, fullName: string)
    requires forall o :: o in s ==> o.fullName != Some(fullName)
    ensures DeleteByFullName(s, fullName).remaining == s
    decreases |s|
  {
    if |s| > 0 {
      NothingRemovedWithoutMatch(s[1..], fullName);
      assert s == [s[0]] + s[1..];
    }
  }

  /** The rows of `s` satisfying `p`, in table order. */
  function Filter(s: Store, p: Organization -> bool): (r: Store)
    ensures forall o :: o in r <==> o in s && p(o)
    ensures |r| == CountWhere(s, p)
    decreases |s|
  {
    if |s| == 0 then []
    else
      var n := |s| - 1;
      var init := Filter(s[..n], p);
      assert forall o :: o in s <==> o in s[..n] || o == s[n] by {
        assert s == s[..n] + [s[n]];
      }
      if p(s[n]) then init + [s[n]] else init
  }

  /** Filtering a table with one more row in front puts that row in front when it passes. */
  lemma {:induction false} FilterPrepend(x: Organization, s: Store, p: Organization -> bool)
    ensures Filter([x] + s, p) == (if p(x) then [x] else []) + Filter(s, p)
    decreases |s|
  {
    var xs := [x] + s;
    if |s| == 0 {
      assert xs[..0] == [];
    } else {
      var n := |s| - 1;
      assert xs[..|xs| - 1] == [x] + s[..n];
      assert xs[|xs| - 1] == s[n];
      FilterPrepend(x, s[..n], p);
    }
  }

  /** The condition of `deleteByFullName`: the full name is present and equal. */
  function Named(fullName: string): Organization -> bool {
    (o: Organization) => o.fullName == Some(fullName)
  }

  /** Its negation: the full name is absent or different. */
  function NotNamed(fullName: string): Organization -> bool {
    (o: Organization) => o.fullName != Some(fullName)
  }

  /**
   The derived delete is a stable partition: the remaining rows are the table
   filtered by "not this full name" and the removed rows the table filtered by
   "this full name", both in table order.
   */
  lemma {:induction false} DeletionIsFilter(s: Store, fullName: string)
    ensures DeleteByFullName(s, fullName).remaining == Filter(s, NotNamed(fullName))
    ensures DeleteByFullName(s, fullName).deleted == Filter(s, Named(fullName))
    decreases |s|
  {
    if |s| > 0 {
      DeletionIsFilter(s[1..], fullName);
      FilterPrepend(s[0], s[1..], NotNamed(fullName));
      FilterPrepend(s[0], s[1..], Named(fullName));
      assert [s[0]] + s[1..] == s;
    }
  }

  /** `deleted.size()`: the number of rows whose full name equals the argument. */
  lemma DeletedCount(s: Store, fullName: string)
    ensures |DeleteByFullName(s, fullName).deleted| == |set i | 0 <= i < |s| && s[i].fullName == Some(fullName)|
  {
    DeletionIsFilter(s, fullName);
    CountIsCardinality(s, Named(fullName));
    assert Positions(s, Named(fullName)) == set i | 0 <= i < |s| && s[i].fullName == Some(fullName);
  }

  /* ------------------------------------------------------------ counting */

  /** `SELECT COUNT(o) ... WHERE p(o)`, counted from the last row backwards. */
  function CountWhere(s: Store, p: Organization -> bool): (n: nat)
    ensures n <= |s|
    decreases |s|
  {
    if |s| == 0 then 0
    else CountWhere(s[..|s| - 1], p) + (if p(s[|s| - 1]) then 1 else 0)
  }

  /** The positions of the rows satisfying `p`. */
  function Positions(s: Store, p: Organization -> bool): set<int> {
    set i | 0 <= i < |s| && p(s[i])
  }

  /** The count is the number of positions whose row satisfies `p`. */
  lemma {:induction false} CountIsCardinality(s: Store, p: Organization -> bool)
    ensures CountWhere(s, p) == |Positions(s, p)|
    decreases |s|
  {
    if |s| > 0 {
      var n := |s| - 1;
      CountIsCardinality(s[..n], p);
      var before := Positions(s[..n], p);
      assert forall i :: 0 <= i < n ==> s[..n][i] == s[i];
      if p(s[n]) {
        assert Positions(s, p) == before + {n};
      } else {
        assert Positions(s, p) == before;
      }
    }
  }

  /** Rows satisfying two disjoint conditions never outnumber the table. */
  lemma {:induction false} CountDisjoint(s: Store, p: Organization -> bool, q: Organization -> bool)
    requires forall o :: !(p(o) && q(o))
    ensures CountWhere(s, p) + CountWhere(s, q) <= |s|
    decreases |s|
  {
    if |s| > 0 {
      CountDisjoint(s[..|s| - 1], p, q);
    }
  }

  /** A weaker condition counts at least as many rows. */
  lemma {:induction false} CountMonotone(s: Store, p: Organization -> bool, q: Organization -> bool)
    requires forall o :: p(o) ==> q(o)
    ensures CountWhere(s, p) <= CountWhere(s, q)
    decreases |s|
  {
    if |s| > 0 {
      CountMonotone(s[..|s| - 1], p, q);
    }
  }

  /* -------------------------------------------------------- the queries */

  predicate HasTurnover(o: Organization) {
    o.annualTurnover.Some?
  }

  /** `countOrganizationsWithTurnover`: rows whose turnover is not NULL. */
  function CountWithTurnover(s: Store): (n: nat)
    ensures n == |set i | 0 <= i < |s| && HasTurnover(s[i])|
  {
    CountIsCardinality(s, HasTurnover);
    assert Positions(s, HasTurnover) == set i | 0 <= i < |s| && HasTurnover(s[i]);
    CountWhere(s, HasTurnover)
  }

  /** `o.type > :type` under the order `rank` induces; a NULL type compares as not greater. */
  predicate TypeGreater(o: Organization, t: OrgType, rank: OrgType -> int) {
    o.orgType.Some? && rank(o.orgType.value) > rank(t)
  }

  /** `countByTypeGreaterThan`: rows whose type ranks strictly above `t`. */
  function CountByTypeGreaterThan(s: Store, t: OrgType, rank: OrgType -> int): (n: nat)
    ensures n == |set i | 0 <= i < |s| && TypeGreater(s[i], t, rank)|
    ensures n <= |s|
  {
    var p := o => TypeGreater(o, t, rank);
    CountIsCardinality(s, p);
    assert Positions(s, p) == set i | 0 <= i < |s| && TypeGreater(s[i], t, rank);
    CountWhere(s, p)
  }

  predicate OfType(o: Organization, t: OrgType) {
    o.orgType == Some(t)
  }

  /** Rows of the compared type itself are never counted. */
  lemma CountByTypeExcludesSameType(s: Store, t: OrgType, rank: OrgType -> int)
    ensures CountByTypeGreaterThan(s, t, rank) + CountWhere(s, o => OfType(o, t)) <= |s|
  {
    CountDisjoint(s, o => TypeGreater(o, t, rank), o => OfType(o, t));
  }

  /** Comparing against a higher-ranked type never counts more rows. */
  lemma CountByTypeAntitone(s: Store, t: OrgType, u: OrgType, rank: OrgType -> int)
    requires rank(t) <= rank(u)
    ensures CountByTypeGreaterThan(s, u, rank) <= CountByTypeGreaterThan(s, t, rank)
  {
    CountMonotone(s, o => TypeGreater(o, u, rank), o => TypeGreater(o, t, rank));
  }

  /** Sum of the present turnovers. */
  function SumTurnover(s: Store): real
    decreases |s|
  {
    if |s| == 0 then 0.0
    else SumTurnover(s[..|s| - 1]) + s[|s| - 1].annualTurnover.UnwrapOr(0.0)
  }

  /**
   `calculateAverageAnnualTurnover`: `AVG` over the non-NULL turnovers, NULL
   when there are none. The value is the arithmetic mean of the list of
   present turnovers, so times their number it gives back their sum.
   */
  function AverageTurnover(s: Store): (r: Option<real>)
    ensures r.None? <==> CountWithTurnover(s) == 0
    ensures r == Mean(PresentTurnovers(s))
  {
    var n := CountWithTurnover(s);
    SumTurnoverIsSum(s);
    assert |PresentTurnovers(s)| == n;
    if n == 0 then None
    else
      Some(SumTurnover(s) / n as real)
  }

  /** The average, added up once per present turnover, gives back their sum, as `AVG` does. */
  lemma AverageTimesCount(s: Store)
    ensures AverageTurnover(s).Some? ==> Times(CountWithTurnover(s), AverageTurnover(s).value) == SumTurnover(s)
  {
    var n := CountWithTurnover(s);
    if n != 0 {
      QuotientTimes(SumTurnover(s), n);
    }
  }

  /** `n` copies of `a / n` add up to `a`. */
  lemma QuotientTimes(a: real, n: nat)
    requires n > 0
    ensures Times(n, a / n as real) == a
  {
    TimesIsProduct(n, a / n as real);
  }

  /** The non-NULL turnovers, in table order. */
  function PresentTurnovers(s: Store): (r: seq<real>)
    ensures |r| == CountWhere(s, HasTurnover)
    ensures forall x :: x in r <==> exists i :: 0 <= i < |s| && s[i].annualTurnover == Some(x)
    decreases |s|
  {
    if |s| == 0 then []
    else
      var n := |s| - 1;
      var init := PresentTurnovers(s[..n]);
      assert forall i :: 0 <= i < n ==> s[..n][i] == s[i];
      init + (if HasTurnover(s[n]) then [s[n].annualTurnover.value] else [])
  }

  /** The sum of a list of reals, added from the front. */
  function Sum(xs: seq<real>): real
    decreases |xs|
  {
    if xs == [] then 0.0 else xs[0] + Sum(xs[1..])
  }

  /** The arithmetic mean of a list of reals; none for the empty list. */
  function Mean(xs: seq<real>): Option<real> {
    if xs == [] then None else Some(Sum(xs) / |xs| as real)
  }

  /** The sum of a concatenation is the sum of the sums. */
  lemma {:induction false} SumAppend(a: seq<real>, b: seq<real>)
    ensures Sum(a + b) == Sum(a) + Sum(b)
    decreases |a|
  {
    if a == [] {
      assert a + b == b;
    } else {
      assert (a + b)[1..] == a[1..] + b;
      SumAppend(a[1..], b);
    }
  }

  /** Adding up the present turnovers row by row is summing the list of them. */
  lemma {:induction false} SumTurnoverIsSum(s: Store)
    ensures SumTurnover(s) == Sum(PresentTurnovers(s))
    decreases |s|
  {
    if |s| > 0 {
      var n := |s| - 1;
      var last := if HasTurnover(s[n]) then [s[n].annualTurnover.value] else [];
      SumTurnoverIsSum(s[..n]);
      SumAppend(PresentTurnovers(s[..n]), last);
      assert Sum(last) == s[n].annualTurnover.UnwrapOr(0.0) by {
        if last != [] {
          assert last[1..] == [];
        }
      }
    }
  }

  /** Every present turnover lies in `[lo, hi]`. */
  predicate TurnoversWithin(s: Store, lo: real, hi: real) {
    forall i :: 0 <= i < |s| && HasTurnover(s[i]) ==> lo <= s[i].annualTurnover.value <= hi
  }

  /** `n` copies of `x` added up; kept linear so that the sum bounds below stay cheap. */
  function Times(n: nat, x: real): real
    decreases n
  {
    if n == 0 then 0.0 else Times(n - 1, x) + x
  }

  /** `Times` is multiplication. */
  lemma {:induction false} TimesIsProduct(n: nat, x: real)
    ensures Times(n, x) == n as real * x
    decreases n
  {
    if n > 0 {
      TimesIsProduct(n - 1, x);
      assert n as real * x == (n - 1) as real * x + x;
    }
  }

  /** When every present turnover lies in `[lo, hi]`, their sum lies between `n` times `lo` and `n` times `hi`. */
  lemma {:induction false} SumBounds(s: Store, lo: real, hi: real)
    requires TurnoversWithin(s, lo, hi)
    ensures Times(CountWithTurnover(s), lo) <= SumTurnover(s) <= Times(CountWithTurnover(s), hi)
    decreases |s|
  {
    if |s| > 0 {
      var n := |s| - 1;
      var init := s[..n];
      assert TurnoversWithin(init, lo, hi) by {
        assert forall i :: 0 <= i < n ==> init[i] == s[i];
      }
      SumBounds(init, lo, hi);
    }
  }

  /** The average lies between the smallest and largest present turnover. */
  lemma AverageBounds(s: Store, lo: real, hi: real)
    requires TurnoversWithin(s, lo, hi)
    requires CountWithTurnover(s) > 0
    ensures lo <= AverageTurnover(s).value <= hi
  {
    var c := CountWithTurnover(s);
    SumBounds(s, lo, hi);
    TimesIsProduct(c, lo);
    TimesIsProduct(c, hi);
    DivideBounds(SumTurnover(s), c as real, lo, hi);
  }

  lemma DivideBounds(sum: real, n: real, lo: real, hi: real)
    requires n > 0.0 && n * lo <= sum <= n * hi
    ensures lo <= sum / n <= hi
  {
    assert sum / n - lo == (sum - n * lo) / n;
    assert hi - sum / n == (n * hi - sum) / n;
  }

  /** The condition a composed specification puts on a row. */
  function Accepting(spec: Specification.Spec): Organization -> bool {
    o => Specification.Accepts(spec, o)
  }

  /** `findAll(spec)`: the rows the specification selects, in table order, as many as `COUNT` reports. */
  function Matching(s: Store, spec: Specification.Spec): (r: Store)
    ensures forall o :: o in r <==> o in s && Specification.Accepts(spec, o)
    ensures |r| == CountWhere(s, Accepting(spec))
  {
    Filter(s, Accepting(spec))
  }

  /**
   The averaging query on three rows with turnovers 100, NULL and 300: the
   NULL row is skipped, so the count is 2 and the average 200.
   */
  lemma AverageExample(a: Organization, b: Organization, c: Organization)
    requires a.annualTurnover == Some(100.0) && b.annualTurnover.None? && c.annualTurnover == Some(300.0)
    ensures CountWithTurnover([a, b, c]) == 2
    ensures AverageTurnover([a, b, c]) == Some(200.0)
  {
    var s := [a, b, c];
    assert s[..2] == [a, b] && [a, b][..1] == [a] && [a][..0] == [];
    assert SumTurnover([a]) == 100.0 && CountWhere([a], HasTurnover) == 1;
    assert SumTurnover([a, b]) == 100.0 && CountWhere([a, b], HasTurnover) == 1;
    assert SumTurnover(s) == 400.0 && CountWhere(s, HasTurnover) == 2;
  }
}

=== FILE: sequences.dfy ===
/** Concatenating what a function gives for each element of a sequence, in order. */
module Sequences {

  /** `f(xs[0]) + f(xs[1]) + ...`, built from the last element backwards. */
  function FlatMap<A, B>(xs: seq<A>, f: A -> seq<B>): seq<B>
    decreases |xs|
  {
    if |xs| == 0 then [] else FlatMap(xs[..|xs| - 1], f) + f(xs[|xs| - 1])
  }

  /** Mapping a concatenation concatenates the mapped parts, so results keep input order. */
  lemma {:induction false} FlatMapAppend<A, B>(a: seq<A>, b: seq<A>, f: A -> seq<B>)
    ensures FlatMap(a + b, f) == FlatMap(a, f) + FlatMap(b, f)
    decreases |b|
  {
    if |b| == 0 {
      assert a + b == a;
    } else {
      var n := |b| - 1;
      assert (a + b)[..|a + b| - 1] == a + b[..n];
      FlatMapAppend(a, b[..n], f);
    }
  }

  /** A prefix one element longer adds that element's part at the end. */
  lemma FlatMapSnoc<A, B>(xs: seq<A>, i: int, f: A -> seq<B>)
    requires 0 <= i < |xs|
    ensures FlatMap(xs[..i + 1], f) == FlatMap(xs[..i], f) + f(xs[i])
  {
    assert xs[..i + 1][..i] == xs[..i];
  }

  /** When every part has at most one element, there are no more results than inputs. */
  lemma {:induction false} FlatMapLength<A, B>(xs: seq<A>, f: A -> seq<B>)
    requires forall x :: |f(x)| <= 1
    ensures |FlatMap(xs, f)| <= |xs|
    decreases |xs|
  {
    if |xs| > 0 {
      FlatMapLength(xs[..|xs| - 1], f);
    }
  }

  /** Every result comes out of the part of some input. */
  lemma {:induction false} FlatMapMembers<A, B>(xs: seq<A>, f: A -> seq<B>, y: B)
    requires y in FlatMap(xs, f)
    ensures exists i :: 0 <= i < |xs| && y in f(xs[i])
    decreases |xs|
  {
    var n := |xs| - 1;
    if y !in f(xs[n]) {
      FlatMapMembers(xs[..n], f, y);
      var i :| 0 <= i < n && y in f(xs[..n][i]);
      assert xs[..n][i] == xs[i];
    }
  }

  /** The result is empty exactly when every part is. */
  lemma {:induction false} FlatMapEmpty<A, B>(xs: seq<A>, f: A -> seq<B>)
    ensures FlatMap(xs, f) == [] <==> forall i :: 0 <= i < |xs| ==> f(xs[i]) == []
    decreases |xs|
  {
    if |xs| > 0 {
      var n := |xs| - 1;
      FlatMapEmpty(xs[..n], f);
      assert forall i :: 0 <= i < n ==> xs[..n][i] == xs[i];
    }
  }

  /** `g` applied to every element. */
  function Map<A, B>(xs: seq<A>, g: A -> B): (r: seq<B>)
    ensures |r| == |xs|
    ensures forall i :: 0 <= i < |xs| ==> r[i] == g(xs[i])
  {
    seq(|xs|, i requires 0 <= i < |xs| => g(xs[i]))
  }

  /** When `f` turns each `g(x)` back into `[x]`, `FlatMap` with `f` undoes `Map` with `g`. */
  lemma {:induction false} FlatMapUndoesMap<A, B>(xs: seq<A>, g: A -> B, f: B -> seq<A>)
    requires forall i :: 0 <= i < |xs| ==> f(g(xs[i])) == [xs[i]]
    ensures FlatMap(Map(xs, g), f) == xs
    decreases |xs|
  {
    if |xs| > 0 {
      var n := |xs| - 1;
      var m := Map(xs, g);
      assert m[..n] == Map(xs[..n], g);
      assert forall i :: 0 <= i < n ==> xs[..n][i] == xs[i];
      FlatMapUndoesMap(xs[..n], g, f);
      assert xs == xs[..n] + [xs[n]];
    }
  }
}

=== FILE: service.dfy ===
/**
 The service layer: the field-for-field response copy, the create/update
 entity construction, the four CRUD transitions with their `NotFound`
 outcome, the derived delete, and the query that `getAllOrganizations` hands
 to the repository (filter, sort and page defaults).

 A transition either fails, leaving the table as it was (the transaction is
 rolled back), or yields the new table together with what the caller sees.
 The key the database generates and the clock reading `@CreationTimestamp`
 takes are parameters of `CreateOrganization`.
 */
module Service {
  import opened Wrappers
  import opened Model
  import Specification
  import SortParser
  import opened Repository

  /* ------------------------------------------------------------ responses */

  /** The response body: all nine entity fields. */
  datatype OrganizationResponse = OrganizationResponse(
    id: int,
    name: Option<string>,
    coordinates: Option<Coordinates>,
    creationDate: Timestamp,
    annualTurnover: Option<real>,
    fullName: Option<string>,
    employeesCount: Option<int>,
    orgType: Option<OrgType>,
    officialAddress: Option<Address>)

  /** Reads a response back as the entity it describes. */
  function EntityOf(r: OrganizationResponse): Organization {
    Organization(r.id, r.name, r.coordinates, r.creationDate, r.annualTurnover,
                 r.fullName, r.employeesCount, r.orgType, r.officialAddress)
  }

  /** `toResponseDTO`: a copy that loses nothing, so the entity can be read back from it. */
  function ToResponse(o: Organization): (r: OrganizationResponse)
    ensures EntityOf(r) == o
    ensures r.id == o.id && r.creationDate == o.creationDate
  {
    OrganizationResponse(o.id, o.name, o.coordinates, o.creationDate, o.annualTurnover,
                         o.fullName, o.employeesCount, o.orgType, o.officialAddress)
  }

  /** Distinct entities give distinct responses. */
  lemma ToResponseInjective(a: Organization, b: Organization)
    ensures ToResponse(a) == ToResponse(b) <==> a == b
  {
    if ToResponse(a) == ToResponse(b) {
      assert EntityOf(ToResponse(a)) == EntityOf(ToResponse(b));
    }
  }

  /** Reading a response back and copying it again gives the same response. */
  lemma ResponseRoundTrip(r: OrganizationResponse)
    ensures ToResponse(EntityOf(r)) == r
  {
  }

  /* ------------------------------------------------------------- outcomes */

  /** Why a service call fails. */
  datatype Failure =
    | NotFound(id: int)
      /** Persisting rejected the entity: bean validation or a NOT NULL column. */
    | ConstraintViolation(violations: set<Violation>)

  datatype Outcome<T> = Success(value: T) | Failed(failure: Failure)

  /** A successful write: the table afterwards and the body returned. */
  datatype Written = Written(store: Store, response: OrganizationResponse)

  /* ---------------------------------------------------- entity from body */

  /** The seven fields a request body sets, read off an entity. */
  function BodyOf(o: Organization): OrganizationCreateDto {
    OrganizationCreateDto(o.name, o.coordinates, o.annualTurnover, o.fullName,
                          o.employeesCount, o.orgType, o.officialAddress)
  }

  /**
   The entity `createOrganization` builds and `save` completes: the body's
   seven fields, the generated key and the creation instant.
   */
  function NewEntity(d: OrganizationCreateDto, id: int, now: Timestamp): (o: Organization)
    ensures BodyOf(o) == d
    ensures o.id == id && o.creationDate == now
  {
    Organization(id, d.name, d.coordinates, now, d.annualTurnover, d.fullName,
                 d.employeesCount, d.orgType, d.officialAddress)
  }

  /** The entity after the seven setters of `updateOrganization`: only key and creation date survive. */
  function Overwrite(o: Organization, d: OrganizationCreateDto): (r: Organization)
    ensures BodyOf(r) == d
    ensures r.id == o.id && r.creationDate == o.creationDate
  {
    o.(name := d.name, coordinates := d.coordinates, annualTurnover := d.annualTurnover,
       fullName := d.fullName, employeesCount := d.employeesCount, orgType := d.orgType,
       officialAddress := d.officialAddress)
  }

  /** An entity is determined by its key, its creation date and the seven body fields. */
  lemma EntityDeterminedByBody(a: Organization, b: Organization)
    requires a.id == b.id && a.creationDate == b.creationDate && BodyOf(a) == BodyOf(b)
    ensures a == b
  {
  }

  /** Overwriting twice keeps only the second body. */
  lemma OverwriteTwice(o: Organization, d: OrganizationCreateDto, e: OrganizationCreateDto)
    ensures Overwrite(Overwrite(o, d), e) == Overwrite(o, e)
  {
    EntityDeterminedByBody(Overwrite(Overwrite(o, d), e), Overwrite(o, e));
  }

  /**
   A body that passes `@Valid` yields an entity that passes persist-time
   validation, and whose embedded values are valid too, whatever positive key
   and creation date it receives.
   */
  lemma ValidBodyGivesValidEntity(d: OrganizationCreateDto, o: Organization)
    requires ValidDto(d) && BodyOf(o) == d && o.id >= MinId
    ensures DeeplyValid(o)
    ensures EntityViolations(o) == {}
  {
  }

  /* ------------------------------------------------------------ the table */

  /** What every reachable table satisfies: unique keys and rows that pass validation, cascaded. */
  predicate Consistent(s: Store) {
    UniqueIds(s) && forall i :: 0 <= i < |s| ==> DeeplyValid(s[i])
  }

  /** Persisting `o`: rejected with every violation, or accepted. */
  function Validate(o: Organization): (r: Option<set<Violation>>)
    ensures r.None? <==> ValidOrganization(o)
    ensures r.Some? ==> r.value != {} && r.value == EntityViolations(o)
  {
    var v := EntityViolations(o);
    if v == {} then None else Some(v)
  }

  /* ----------------------------------------------------------- operations */

  /** `getOrganizationById`: the stored row as a response, or `NotFound`. */
  function GetOrganizationById(s: Store, id: int): (r: Outcome<OrganizationResponse>)
    ensures r.Failed? <==> !ExistsById(s, id)
    ensures r.Failed? ==> r.failure == NotFound(id)
    ensures r.Success? ==> r.value.id == id && EntityOf(r.value) in s
  {
    match FindById(s, id)
    case None => Failed(NotFound(id))
    case Some(o) => Success(ToResponse(o))
  }

  /**
   `createOrganization`: the body becomes a new row under the fresh key
   `freshId`, stamped with `now`. Persisting fails only when the entity
   violates its own annotations; the table is then left as it was.
   */
  function CreateOrganization(s: Store, d: OrganizationCreateDto, freshId: int, now: Timestamp): (r: Outcome<Written>)
    requires freshId >= MinId && !ExistsById(s, freshId)
    ensures r.Failed? <==> !ValidOrganization(NewEntity(d, freshId, now))
    ensures r.Failed? ==> r.failure.ConstraintViolation? && r.failure.violations != {}
    ensures r.Failed? ==> r.failure.violations == EntityViolations(NewEntity(d, freshId, now))
    ensures r.Success? ==>
      && |r.value.store| == |s| + 1
      && FindById(r.value.store, freshId) == Some(NewEntity(d, freshId, now))
      && (forall k :: k != freshId ==> FindById(r.value.store, k) == FindById(s, k))
      && r.value.response.id == freshId
      && r.value.response.creationDate == now
      && BodyOf(EntityOf(r.value.response)) == d
  {
    var o := NewEntity(d, freshId, now);
    match Validate(o)
    case Some(v) => Failed(ConstraintViolation(v))
    case None => Success(Written(Insert(s, o), ToResponse(o)))
  }

  /**
   `updateOrganization`: a missing key fails with `NotFound`; otherwise the
   stored row gets the body's seven fields and keeps its key and creation
   date, and no other row changes.
   */
  function UpdateOrganization(s: Store, id: int, d: OrganizationCreateDto): (r: Outcome<Written>)
    ensures !ExistsById(s, id) ==> r == Failed(NotFound(id))
    ensures r.Success? <==> ExistsById(s, id) && ValidOrganization(Overwrite(FindById(s, id).value, d))
    ensures r.Failed? && r.failure.ConstraintViolation? ==>
      && ExistsById(s, id)
      && !ValidOrganization(Overwrite(FindById(s, id).value, d))
      && r.failure.violations == EntityViolations(Overwrite(FindById(s, id).value, d))
    ensures r.Success? ==>
      && ExistsById(s, id)
      && |r.value.store| == |s|
      && FindById(r.value.store, id).Some?
      && BodyOf(FindById(r.value.store, id).value) == d
      && FindById(r.value.store, id).value.id == id
      && FindById(r.value.store, id).value.creationDate == FindById(s, id).value.creationDate
      && (forall k :: k != id ==> FindById(r.value.store, k) == FindById(s, k))
      && r.value.response == ToResponse(FindById(r.value.store, id).value)
  {
    match FindById(s, id)
    case None => Failed(NotFound(id))
    case Some(stored) =>
      var o := Overwrite(stored, d);
      match Validate(o)
      case Some(v) => Failed(ConstraintViolation(v))
      case None =>
        ReplaceFind(s, o);
        Success(Written(Replace(s, o), ToResponse(o)))
  }

  /** `deleteOrganization`: a missing key fails with `NotFound`; otherwise that row alone goes. */
  function DeleteOrganization(s: Store, id: int): (r: Outcome<Store>)
    ensures r.Failed? <==> !ExistsById(s, id)
    ensures r.Failed? ==> r.failure == NotFound(id)
    ensures r.Success? ==>
      && !ExistsById(r.value, id)
      && (forall k :: k != id ==> FindById(r.value, k) == FindById(s, k))
  {
    if !ExistsById(s, id) then Failed(NotFound(id)) else Success(DeleteById(s, id))
  }

  /** What the derived delete leaves and how many rows it reports. */
  datatype Purge = Purge(store: Store, count: int)

  /** `deleteByFullName`: the table without the rows of that exact full name, and their number. */
  function DeleteByFullNameCount(s: Store, fullName: string): (r: Purge)
    ensures 0 <= r.count <= |s| && |r.store| == |s| - r.count
    ensures r.count == |set i | 0 <= i < |s| && s[i].fullName == Some(fullName)|
    ensures multiset(r.store) <= multiset(s)
    ensures forall o :: o in s ==> (o in r.store <==> o.fullName != Some(fullName))
    ensures forall o :: o in r.store ==> o in s
  {
    var del := DeleteByFullName(s, fullName);
    DeletedCount(s, fullName);
    forall o | o in s ensures o in del.remaining <==> o.fullName != Some(fullName) {
      DeleteByFullNameKeeps(s, fullName, o);
    }
    forall o | o in del.remaining ensures o in s {
      assert o in multiset(del.remaining);
      assert multiset(del.remaining) + multiset(del.deleted) == multiset(s);
      assert o in multiset(s);
    }
    Purge(del.remaining, |del.deleted|)
  }

  /* ---------------------------------------------------------------- query */

  /** The `page`, `size` and `sort` request parameters plus the thirteen filters. */
  datatype Query = Query(
    page: Option<int>,
    size: Option<int>,
    sort: Option<string>,
    filter: Specification.Filter)

  /** The `Pageable` handed to the repository. */
  datatype PageRequest = PageRequest(page: int, size: int, sort: SortParser.Sort)

  const DefaultPage := 0
  const DefaultSize := 20

  /** `PageRequest.of(page ?: 0, size ?: 20, parseSort(sort))`. */
  function PageRequestOf(q: Query): (r: PageRequest)
    ensures q.page.Some? ==> r.page == q.page.value
    ensures q.page.None? ==> r.page == DefaultPage
    ensures q.size.Some? ==> r.size == q.size.value
    ensures q.size.None? ==> r.size == DefaultSize
    ensures r.sort == SortParser.ParseSort(q.sort)
  {
    PageRequest(q.page.UnwrapOr(DefaultPage), q.size.UnwrapOr(DefaultSize), SortParser.ParseSort(q.sort))
  }

  /**
   What `getAllOrganizations` asks of `findAll`: the rows the composed
   specification selects, as responses in table order, with the page request
   to order and cut them by.
   */
  datatype Selection = Selection(candidates: seq<OrganizationResponse>, request: PageRequest)

  function Responses(rows: Store): (r: seq<OrganizationResponse>)
    ensures |r| == |rows|
    ensures forall i :: 0 <= i < |rows| ==> r[i] == ToResponse(rows[i])
    decreases |rows|
  {
    if |rows| == 0 then [] else [ToResponse(rows[0])] + Responses(rows[1..])
  }

  function GetAllOrganizations(s: Store, q: Query): (r: Selection)
    ensures r.request == PageRequestOf(q)
    ensures forall o :: o in s ==> (ToResponse(o) in r.candidates <==> Specification.Matches(q.filter, o))
    ensures forall x :: x in r.candidates ==> EntityOf(x) in s && Specification.Matches(q.filter, EntityOf(x))
  {
    var spec := Specification.BuildSpec(q.filter);
    var rows := Matching(s, spec);
    var out := Responses(rows);
    forall o | o in s ensures ToResponse(o) in out <==> Specification.Matches(q.filter, o) {
      Specification.BuildSpecMatches(q.filter, o);
      if ToResponse(o) in out {
        var i :| 0 <= i < |out| && out[i] == ToResponse(o);
        ToResponseInjective(rows[i], o);
      }
    }
    forall x | x in out ensures EntityOf(x) in s && Specification.Matches(q.filter, EntityOf(x)) {
      var i :| 0 <= i < |out| && out[i] == x;
      assert rows[i] in rows;
      Specification.BuildSpecMatches(q.filter, rows[i]);
    }
    Selection(out, PageRequestOf(q))
  }

  /* ------------------------------------------------------- the invariant */

  /** A table made only of rows of another keeps every property all of those rows have. */
  lemma RowsKept(s: Store, t: Store, p: Organization -> bool)
    requires forall o :: o in t ==> o in s
    requires forall i :: 0 <= i < |s| ==> p(s[i])
    ensures forall i :: 0 <= i < |t| ==> p(t[i])
  {
    forall i | 0 <= i < |t| ensures p(t[i]) {
      assert t[i] in s;
    }
  }

  /** Adding a valid row under a new key keeps the table consistent. */
  lemma InsertConsistent(s: Store, o: Organization)
    requires Consistent(s) && DeeplyValid(o) && !ExistsById(s, o.id)
    ensures Consistent(Insert(s, o))
  {
    var t := Insert(s, o);
    assert t == s + [o];
    InsertUnique(s, o);
    forall i | 0 <= i < |t| ensures DeeplyValid(t[i]) {
      if i < |s| {
        assert t[i] == s[i];
      }
    }
  }

  /** Overwriting a row with a valid one of the same key keeps the table consistent. */
  lemma ReplaceConsistent(s: Store, o: Organization)
    requires Consistent(s) && DeeplyValid(o)
    ensures Consistent(Replace(s, o))
  {
    var t := Replace(s, o);
    var u := s + [o];
    ReplaceUnique(s, o);
    ReplaceRows(s, o);
    assert forall i :: 0 <= i < |u| ==> DeeplyValid(u[i]);
    RowsKept(u, t, DeeplyValid);
  }

  /** Every create with a valid body succeeds and keeps the table consistent. */
  lemma CreatePreservesConsistency(s: Store, d: OrganizationCreateDto, freshId: int, now: Timestamp)
    requires Consistent(s) && ValidDto(d)
    requires freshId >= MinId && !ExistsById(s, freshId)
    ensures CreateOrganization(s, d, freshId, now).Success?
    ensures Consistent(CreateOrganization(s, d, freshId, now).value.store)
  {
    var o := NewEntity(d, freshId, now);
    ValidBodyGivesValidEntity(d, o);
    assert CreateOrganization(s, d, freshId, now) == Success(Written(Insert(s, o), ToResponse(o)));
    InsertConsistent(s, o);
  }

  /** An update with a valid body succeeds exactly when the key is stored, and keeps the table consistent. */
  lemma UpdatePreservesConsistency(s: Store, id: int, d: OrganizationCreateDto)
    requires Consistent(s) && ValidDto(d)
    ensures UpdateOrganization(s, id, d).Success? <==> ExistsById(s, id)
    ensures UpdateOrganization(s, id, d).Success? ==> Consistent(UpdateOrganization(s, id, d).value.store)
  {
    if ExistsById(s, id) {
      var o := Overwrite(FindById(s, id).value, d);
      ValidBodyGivesValidEntity(d, o);
      assert UpdateOrganization(s, id, d) == Success(Written(Replace(s, o), ToResponse(o)));
      ReplaceConsistent(s, o);
    }
  }

  /** Deleting by key keeps the table consistent. */
  lemma DeletePreservesConsistency(s: Store, id: int)
    requires Consistent(s)
    ensures DeleteOrganization(s, id).Success? ==> Consistent(DeleteOrganization(s, id).value)
  {
    if ExistsById(s, id) {
      var t := DeleteById(s, id);
      DeleteByIdUnique(s, id);
      DeleteByIdSize(s, id);
      forall i | 0 <= i < |t| ensures DeeplyValid(t[i]) {
        assert t[i] in s;
      }
    }
  }

  /** The derived delete keeps the table consistent. */
  lemma DeleteByFullNamePreservesConsistency(s: Store, fullName: string)
    requires Consistent(s)
    ensures Consistent(DeleteByFullNameCount(s, fullName).store)
  {
    var t := DeleteByFullName(s, fullName).remaining;
    assert DeleteByFullNameCount(s, fullName).store == t;
    RemainingUnique(s, fullName);
    forall o | o in t ensures o in s {
      assert o in multiset(t);
      assert multiset(t) + multiset(DeleteByFullName(s, fullName).deleted) == multiset(s);
      assert o in multiset(s);
    }
    RowsKept(s, t, DeeplyValid);
  }

  /** Creating a row and reading it back gives the body, the fresh key and the creation instant. */
  lemma CreateThenGet(s: Store, d: OrganizationCreateDto, freshId: int, now: Timestamp)
    requires freshId >= MinId && !ExistsById(s, freshId)
    requires CreateOrganization(s, d, freshId, now).Success?
    ensures GetOrganizationById(CreateOrganization(s, d, freshId, now).value.store, freshId)
         == Success(CreateOrganization(s, d, freshId, now).value.response)
  {
  }

  /** Deleting a row that was just created gives back the original table's lookups. */
  lemma CreateThenDelete(s: Store, d: OrganizationCreateDto, freshId: int, now: Timestamp, k: int)
    requires freshId >= MinId && !ExistsById(s, freshId)
    requires CreateOrganization(s, d, freshId, now).Success?
    ensures DeleteOrganization(CreateOrganization(s, d, freshId, now).value.store, freshId).Success?
    ensures FindById(DeleteOrganization(CreateOrganization(s, d, freshId, now).value.store, freshId).value, k)
         == FindById(s, k)
  {
  }
}

=== FILE: sort.dfy ===
/**
 `parseSort`: turns `"f1,dir;f2,dir"` into an ordered list of sort orders.

 Segments come from `split(";")` and each segment must `split(",")` into
 exactly two parts, or it is dropped. The field is trimmed and every `.`
 becomes `_`; the direction is DESC exactly when the trimmed, lower-cased
 token is `desc`, ASC otherwise. No surviving order means "unsorted".
 */
module SortParser {
  import opened Wrappers
  import opened Text
  import opened Sequences

  datatype Direction = Asc | Desc

  datatype Order = Order(direction: Direction, property: string)

  /** `Sort.unsorted()` or `Sort.by(orders)` with at least one order. */
  datatype Sort = Unsorted | By(orders: seq<Order>)

  const SegmentSeparator := ';'
  const PairSeparator := ','
  const NestingSeparator := '.'
  const PathJoin := '_'

  /** The direction token: DESC only for `desc` in any case, with any surrounding blanks. */
  function ParseDirection(token: string): (d: Direction)
    ensures d == Desc <==> Lower(Trim(token)) == "desc"
  {
    if Lower(Trim(token)) == "desc" then Desc else Asc
  }

  /** One `;`-segment: an order when it splits on `,` into exactly two parts. */
  function ParseOrder(segment: string): (r: Option<Order>)
    ensures r.Some? <==> |Split(segment, PairSeparator)| == 2
    ensures r.Some? ==> NestingSeparator !in r.value.property
  {
    var parts := Split(segment, PairSeparator);
    if |parts| == 2 then
      var field := ReplaceAll(Trim(parts[0]), NestingSeparator, PathJoin);
      ReplaceAllRemoves(Trim(parts[0]), NestingSeparator, PathJoin);
      Some(Order(ParseDirection(parts[1]), field))
    else
      None
  }

  /** The orders of the segments that parse, in segment order. */
  function ParseOrders(segments: seq<string>): (r: seq<Order>)
    ensures |r| <= |segments|
    ensures forall o :: o in r ==> NestingSeparator !in o.property
  {
    var r := FlatMap(segments, OrderOf);
    FlatMapLength(segments, OrderOf);
    forall o | o in r ensures NestingSeparator !in o.property {
      FlatMapMembers(segments, OrderOf, o);
    }
    r
  }

  /** The zero or one order a segment contributes. */
  function OrderOf(segment: string): (r: seq<Order>)
    ensures |r| <= 1
    ensures forall o :: o in r ==> NestingSeparator !in o.property
  {
    match ParseOrder(segment)
    case Some(o) => [o]
    case None => []
  }

  function ParseSort(sortStr: Option<string>): (r: Sort)
    ensures sortStr.None? || sortStr.value == [] ==> r == Unsorted
    ensures r.By? ==> sortStr.Some? && 0 < |r.orders| <= |Split(sortStr.value, SegmentSeparator)|
    ensures r.By? ==> forall o :: o in r.orders ==> NestingSeparator !in o.property
  {
    if sortStr.None? || |sortStr.value| == 0 then Unsorted
    else
      var orders := ParseOrders(Split(sortStr.value, SegmentSeparator));
      if |orders| == 0 then Unsorted else By(orders)
  }

  /* ------------------------------------------------- the loop as written */

  /**
   The source's `for (String pair : sortPairs)` loop, appending one order
   per well-formed pair; it computes the same sort as `ParseSort`.
   */
  method ParseSortLoop(sortStr: Option<string>) returns (r: Sort)
    ensures r == ParseSort(sortStr)
  {
    if sortStr.None? || |sortStr.value| == 0 {
      return Unsorted;
    }
    var pairs := Split(sortStr.value, SegmentSeparator);
    var orders: seq<Order> := [];
    var i := 0;
    while i < |pairs|
      invariant 0 <= i <= |pairs|
      invariant orders == ParseOrders(pairs[..i])
    {
      FlatMapSnoc(pairs, i, OrderOf);
      orders := orders + OrderOf(pairs[i]);
      i := i + 1;
    }
    assert pairs[..i] == pairs;
    r := if |orders| == 0 then Unsorted else By(orders);
  }

  /* -------------------------------------------------------------- lemmas */

  /** Parsing distributes over concatenation of segment lists, so orders keep input order. */
  lemma ParseOrdersAppend(a: seq<string>, b: seq<string>)
    ensures ParseOrders(a + b) == ParseOrders(a) + ParseOrders(b)
  {
    FlatMapAppend(a, b, OrderOf);
  }

  /** The textual form of an order, `field,asc` or `field,desc`. */
  function FormatOrder(o: Order): string {
    o.property + [PairSeparator] + DirectionToken(o.direction)
  }

  /** Each order formatted on its own. */
  function FormatOrders(orders: seq<Order>): (r: seq<string>)
    ensures |r| == |orders|
    ensures forall i :: 0 <= i < |orders| ==> r[i] == FormatOrder(orders[i])
  {
    Map(orders, FormatOrder)
  }

  /** Joins formatted orders with `;`. */
  function FormatSort(orders: seq<Order>): string
    requires |orders| >= 1
  {
    Join(FormatOrders(orders), SegmentSeparator)
  }

  /**
   A field name that survives the round trip: no separator, no `.` to be
   flattened and no blank at either end for `trim` to cut.
   */
  predicate PlainProperty(p: string) {
    && SegmentSeparator !in p
    && PairSeparator !in p
    && NestingSeparator !in p
    && (p == [] || (!Strippable(p[0]) && !Strippable(p[|p| - 1])))
  }

  /** A single formatted order parses back to itself. */
  lemma ParseFormatOrder(o: Order)
    requires PlainProperty(o.property)
    ensures ParseOrder(FormatOrder(o)) == Some(o)
  {
    var dir := DirectionToken(o.direction);
    assert PairSeparator !in dir;
    SplitOfJoin([o.property, dir], PairSeparator);
    assert Join([o.property, dir], PairSeparator) == FormatOrder(o);
    var parts := Split(FormatOrder(o), PairSeparator);
    assert parts == [o.property, dir];
    TrimOfTrimmed(o.property);
    ReplaceAllRemoves(o.property, NestingSeparator, PathJoin);
    assert ReplaceAll(Trim(parts[0]), NestingSeparator, PathJoin) == o.property;
    DirectionRoundTrip(o.direction);
  }

  /** The direction token that `FormatOrder` writes. */
  function DirectionToken(d: Direction): string {
    if d == Desc then "desc" else "asc"
  }

  lemma DirectionRoundTrip(d: Direction)
    ensures ParseDirection(DirectionToken(d)) == d
  {
    var t := DirectionToken(d);
    TrimOfTrimmed(t);
    LowerOfLowercase(t);
    if d == Asc {
      assert t == "asc";
      assert |t| != |"desc"|;
    }
  }

  /** Formatting then parsing gives back every order, in order. */
  lemma ParseFormatRoundTrip(orders: seq<Order>)
    requires |orders| >= 1
    requires forall o :: o in orders ==> PlainProperty(o.property)
    ensures ParseSort(Some(FormatSort(orders))) == By(orders)
  {
    var segs := FormatOrders(orders);
    assert forall i :: 0 <= i < |segs| ==> SegmentSeparator !in segs[i];
    assert segs[|segs| - 1] != [];
    SplitOfJoin(segs, SegmentSeparator);
    ParseOrdersOfFormatted(orders);
  }

  lemma OrderOfFormatted(o: Order)
    requires PlainProperty(o.property)
    ensures OrderOf(FormatOrder(o)) == [o]
  {
    ParseFormatOrder(o);
  }

  lemma ParseOrdersOfFormatted(orders: seq<Order>)
    requires forall o :: o in orders ==> PlainProperty(o.property)
    ensures ParseOrders(FormatOrders(orders)) == orders
  {
    forall i | 0 <= i < |orders| ensures OrderOf(FormatOrder(orders[i])) == [orders[i]] {
      OrderOfFormatted(orders[i]);
    }
    FlatMapUndoesMap(orders, FormatOrder, OrderOf);
  }

  /** `"name,desc;type,asc"` gives a DESC order on `name` followed by an ASC order on `type`. */
  lemma ExampleTwoOrders()
    ensures ParseSort(Some("name,desc;type,asc")) == By([Order(Desc, "name"), Order(Asc, "type")])
  {
    var orders := [Order(Desc, "name"), Order(Asc, "type")];
    ParseFormatRoundTrip(orders);
    FormatExample();
  }

  lemma FormatExample()
    ensures FormatSort([Order(Desc, "name"), Order(Asc, "type")]) == "name,desc;type,asc"
  {
    var orders := [Order(Desc, "name"), Order(Asc, "type")];
    var f := FormatOrders(orders);
    assert f[0] == "name" + [PairSeparator] + "desc" == "name,desc";
    assert f[1] == "type" + [PairSeparator] + "asc" == "type,asc";
    assert f == ["name,desc", "type,asc"];
    assert Join(f, SegmentSeparator) == "name,desc" + [SegmentSeparator] + "type,asc";
  }

  /** No order survives exactly when no segment splits into two parts. */
  lemma NoOrdersIffNoPairParses(segments: seq<string>)
    ensures ParseOrders(segments) == [] <==> forall i :: 0 <= i < |segments| ==> ParseOrder(segments[i]).None?
  {
    FlatMapEmpty(segments, OrderOf);
    forall i | 0 <= i < |segments| ensures OrderOf(segments[i]) == [] <==> ParseOrder(segments[i]).None? {
    }
  }

  /** The result is unsorted exactly when the string is absent, empty, or has no well-formed pair. */
  lemma UnsortedIff(sortStr: Option<string>)
    ensures ParseSort(sortStr) == Unsorted <==>
      || sortStr.None?
      || sortStr.value == []
      || (var segments := Split(sortStr.value, SegmentSeparator);
          forall i :: 0 <= i < |segments| ==> ParseOrder(segments[i]).None?)
  {
    if sortStr.Some? {
      NoOrdersIffNoPairParses(Split(sortStr.value, SegmentSeparator));
    }
  }

  /**
   A pair `field,token` (neither part holding a comma, the token not empty)
   yields the trimmed field with `.` flattened to `_`, and the token's direction.
   */
  lemma ParseOrderOfPair(field: string, token: string)
    requires PairSeparator !in field && PairSeparator !in token && token != []
    ensures ParseOrder(field + [PairSeparator] + token)
      == Some(Order(ParseDirection(token), ReplaceAll(Trim(field), NestingSeparator, PathJoin)))
  {
    SplitOfJoin([field, token], PairSeparator);
    assert Join([field, token], PairSeparator) == field + [PairSeparator] + token;
  }

  /** A trailing comma is discarded by `split`, so `field,token,` still yields an order. */
  lemma ParseOrderTrailingComma(field: string, token: string)
    requires PairSeparator !in field && PairSeparator !in token && token != []
    ensures ParseOrder(field + [PairSeparator] + token + [PairSeparator])
      == Some(Order(ParseDirection(token), ReplaceAll(Trim(field), NestingSeparator, PathJoin)))
  {
    SplitTrailingSeparator(field, token, PairSeparator);
  }

  /** `split` drops the empty piece after a trailing separator. */
  lemma SplitTrailingSeparator(x: string, y: string, d: char)
    requires d !in x && d !in y && y != []
    ensures Split(x + [d] + y + [d], d) == [x, y]
  {
    var s := x + [d] + y + [d];
    JoinThree(x, y, [], d);
    assert s == x + [d] + y + [d] + [];
    PiecesOfJoin([x, y, []], d);
    assert s[|x|] == d;
    assert DropTrailingEmpty([x, y, []]) == DropTrailingEmpty([x, y]);
  }

  /** A segment with no comma, or with more than one non-trailing comma, yields nothing. */
  lemma ParseOrderRejects(field: string, a: string, b: string)
    requires PairSeparator !in field && PairSeparator !in a && PairSeparator !in b && b != []
    ensures ParseOrder(field) == None
    ensures ParseOrder(field + [PairSeparator] + a + [PairSeparator] + b) == None
  {
    assert Split(field, PairSeparator) == [field];
    JoinThree(field, a, b, PairSeparator);
    SplitOfJoin([field, a, b], PairSeparator);
  }

  /** Joining three pieces puts the separator between each neighbouring pair. */
  lemma JoinThree(x: string, y: string, z: string, d: char)
    ensures Join([x, y, z], d) == x + [d] + y + [d] + z
  {
    assert [x, y, z][1..] == [y, z];
    assert [y, z][1..] == [z];
    assert Join([y, z], d) == y + [d] + z;
  }

  /** The nested path `coordinates.x` is flattened to `coordinates_x`. */
  lemma ExampleNestedField()
    ensures ReplaceAll(Trim("coordinates.x"), NestingSeparator, PathJoin) == "coordinates_x"
  {
    assert Trim("coordinates.x") == "coordinates.x" by {
      TrimOfTrimmed("coordinates.x");
    }
    assert ReplaceAll("coordinates.x", NestingSeparator, PathJoin) == "coordinates_x";
  }

  /** A lone `;` splits into nothing at all, so the result is unsorted. */
  lemma ExampleOnlySeparator()
    ensures ParseSort(Some(";")) == Unsorted
  {
    assert Pieces(";", SegmentSeparator) == [[], []];
  }
}

=== FILE: specification.dfy ===
/**
 The thirteen filter factories and their composition into one row predicate.

 Each factory yields no condition when its argument is null. A present
 condition compares one column; a NULL column makes the comparison UNKNOWN,
 and since conditions are only ever joined by AND and WHERE keeps only TRUE
 rows, a condition is modelled as "holds" (TRUE) or "does not" (FALSE or
 UNKNOWN). Substring filters are case-insensitive containment.
 */
module Specification {
  import opened Wrappers
  import opened Model
  import Text

  datatype Condition =
    | IdEquals(id: int)
    | NameContains(name: string)
    | CoordinateXEquals(x: real)
    | CoordinateYEquals(y: int)
    | CreatedAtOrAfter(from: Timestamp)
    | CreatedAtOrBefore(to: Timestamp)
    | TurnoverAtLeast(minTurnover: real)
    | TurnoverAtMost(maxTurnover: real)
    | FullNameContains(fullName: string)
    | EmployeesAtLeast(min: int)
    | EmployeesAtMost(max: int)
    | TypeEquals(orgType: OrgType)
    | StreetContains(street: string)

  /** The optional query parameters of the list endpoint, one per factory. */
  datatype Filter = Filter(
    id: Option<int>,
    name: Option<string>,
    coordinatesX: Option<real>,
    coordinatesY: Option<int>,
    creationDateFrom: Option<Timestamp>,
    creationDateTo: Option<Timestamp>,
    annualTurnoverMin: Option<real>,
    annualTurnoverMax: Option<real>,
    fullName: Option<string>,
    employeesCountMin: Option<int>,
    employeesCountMax: Option<int>,
    orgType: Option<OrgType>,
    street: Option<string>)

  const NoFilter := Filter(None, None, None, None, None, None, None, None, None, None, None, None, None)

  /** `lower(column) LIKE '%' || lower(arg) || '%'`, with the column possibly NULL. */
  predicate LikeIgnoringCase(column: Option<string>, arg: string) {
    column.Some? && Text.Contains(Text.Lower(column.value), Text.Lower(arg))
  }

  /** Whether a condition is TRUE for a row. */
  predicate Holds(c: Condition, o: Organization) {
    match c
    case IdEquals(id) => o.id == id
    case NameContains(name) => LikeIgnoringCase(o.name, name)
    case CoordinateXEquals(x) => o.coordinates.Some? && o.coordinates.value.x == Some(x)
    case CoordinateYEquals(y) => o.coordinates.Some? && o.coordinates.value.y == Some(y)
    case CreatedAtOrAfter(from) => o.creationDate >= from
    case CreatedAtOrBefore(to) => o.creationDate <= to
    case TurnoverAtLeast(min) => o.annualTurnover.Some? && o.annualTurnover.value >= min
    case TurnoverAtMost(max) => o.annualTurnover.Some? && o.annualTurnover.value <= max
    case FullNameContains(fullName) => LikeIgnoringCase(o.fullName, fullName)
    case EmployeesAtLeast(min) => o.employeesCount.Some? && o.employeesCount.value >= min
    case EmployeesAtMost(max) => o.employeesCount.Some? && o.employeesCount.value <= max
    case TypeEquals(t) => o.orgType == Some(t)
    case StreetContains(street) =>
      o.officialAddress.Some? && LikeIgnoringCase(o.officialAddress.value.street, street)
  }

  /* ------------------------------------------------------------ factories */

  function HasId(id: Option<int>): (r: Option<Condition>)
    ensures id.None? <==> r.None?
    ensures forall o :: r.Some? ==> (Holds(r.value, o) <==> o.id == id.value)
  {
    if id.None? then None else Some(IdEquals(id.value))
  }

  function NameLike(name: Option<string>): (r: Option<Condition>)
    ensures name.None? <==> r.None?
    ensures forall o :: r.Some? ==>
      (Holds(r.value, o) <==> o.name.Some? && Text.Contains(Text.Lower(o.name.value), Text.Lower(name.value)))
  {
    if name.None? then None else Some(NameContains(name.value))
  }

  function HasCoordinateX(x: Option<real>): (r: Option<Condition>)
    ensures x.None? <==> r.None?
    ensures forall o :: r.Some? ==>
      (Holds(r.value, o) <==> o.coordinates.Some? && o.coordinates.value.x == x)
  {
    if x.None? then None else Some(CoordinateXEquals(x.value))
  }

  function HasCoordinateY(y: Option<int>): (r: Option<Condition>)
    ensures y.None? <==> r.None?
    ensures forall o :: r.Some? ==>
      (Holds(r.value, o) <==> o.coordinates.Some? && o.coordinates.value.y == y)
  {
    if y.None? then None else Some(CoordinateYEquals(y.value))
  }

  function CreatedAfter(date: Option<Timestamp>): (r: Option<Condition>)
    ensures date.None? <==> r.None?
    ensures forall o :: r.Some? ==> (Holds(r.value, o) <==> date.value <= o.creationDate)
  {
    if date.None? then None else Some(CreatedAtOrAfter(date.value))
  }

  function CreatedBefore(date: Option<Timestamp>): (r: Option<Condition>)
    ensures date.None? <==> r.None?
    ensures forall o :: r.Some? ==> (Holds(r.value, o) <==> o.creationDate <= date.value)
  {
    if date.None? then None else Some(CreatedAtOrBefore(date.value))
  }

  function AnnualTurnoverMin(min: Option<real>): (r: Option<Condition>)
    ensures min.None? <==> r.None?
    ensures forall o :: r.Some? ==>
      (Holds(r.value, o) <==> o.annualTurnover.Some? && min.value <= o.annualTurnover.value)
  {
    if min.None? then None else Some(TurnoverAtLeast(min.value))
  }

  function AnnualTurnoverMax(max: Option<real>): (r: Option<Condition>)
    ensures max.None? <==> r.None?
    ensures forall o :: r.Some? ==>
      (Holds(r.value, o) <==> o.annualTurnover.Some? && o.annualTurnover.value <= max.value)
  {
    if max.None? then None else Some(TurnoverAtMost(max.value))
  }

  function FullNameLike(fullName: Option<string>): (r: Option<Condition>)
    ensures fullName.None? <==> r.None?
    ensures forall o :: r.Some? ==>
      (Holds(r.value, o) <==>
        o.fullName.Some? && Text.Contains(Text.Lower(o.fullName.value), Text.Lower(fullName.value)))
  {
    if fullName.None? then None else Some(FullNameContains(fullName.value))
  }

  function EmployeesCountMin(min: Option<int>): (r: Option<Condition>)
    ensures min.None? <==> r.None?
    ensures forall o :: r.Some? ==>
      (Holds(r.value, o) <==> o.employeesCount.Some? && min.value <= o.employeesCount.value)
  {
    if min.None? then None else Some(EmployeesAtLeast(min.value))
  }

  function EmployeesCountMax(max: Option<int>): (r: Option<Condition>)
    ensures max.None? <==> r.None?
    ensures forall o :: r.Some? ==>
      (Holds(r.value, o) <==> o.employeesCount.Some? && o.employeesCount.value <= max.value)
  {
    if max.None? then None else Some(EmployeesAtMost(max.value))
  }

  function HasType(t: Option<OrgType>): (r: Option<Condition>)
    ensures t.None? <==> r.None?
    ensures forall o :: r.Some? ==> (Holds(r.value, o) <==> o.orgType == t)
  {
    if t.None? then None else Some(TypeEquals(t.value))
  }

  function StreetLike(street: Option<string>): (r: Option<Condition>)
    ensures street.None? <==> r.None?
    ensures forall o :: r.Some? ==>
      (Holds(r.value, o) <==>
        && o.officialAddress.Some?
        && o.officialAddress.value.street.Some?
        && Text.Contains(Text.Lower(o.officialAddress.value.street.value), Text.Lower(street.value)))
  {
    if street.None? then None else Some(StreetContains(street.value))
  }

  /* ---------------------------------------------------------- composition */

  /** 1 for a supplied parameter, 0 for an absent one. */
  function Supplied<T>(v: Option<T>): nat {
    if v.Some? then 1 else 0
  }

  /** A composed specification: the conjunction of its conditions. */
  type Spec = seq<Condition>

  /** `Specification.and`: a null right-hand side leaves the specification as it was. */
  function And(spec: Spec, c: Option<Condition>): (r: Spec)
    ensures |r| == |spec| + Supplied(c)
    ensures forall o :: Accepts(r, o) <==> Accepts(spec, o) && (c.None? || Holds(c.value, o))
  {
    match c
    case None => spec
    case Some(x) => spec + [x]
  }

  /** A row passes WHERE when every condition is TRUE for it. */
  predicate Accepts(spec: Spec, o: Organization) {
    forall c :: c in spec ==> Holds(c, o)
  }

  /** The thirteen conditional `spec.and(...)` steps, starting from `Specification.where(null)`. */
  function BuildSpec(f: Filter): (r: Spec)
    ensures |r| <= 13
  {
    var s0: Spec := [];
    var s1 := And(s0, HasId(f.id));
    var s2 := And(s1, NameLike(f.name));
    var s3 := And(s2, HasCoordinateX(f.coordinatesX));
    var s4 := And(s3, HasCoordinateY(f.coordinatesY));
    var s5 := And(s4, CreatedAfter(f.creationDateFrom));
    var s6 := And(s5, CreatedBefore(f.creationDateTo));
    var s7 := And(s6, AnnualTurnoverMin(f.annualTurnoverMin));
    var s8 := And(s7, AnnualTurnoverMax(f.annualTurnoverMax));
    var s9 := And(s8, FullNameLike(f.fullName));
    var s10 := And(s9, EmployeesCountMin(f.employeesCountMin));
    var s11 := And(s10, EmployeesCountMax(f.employeesCountMax));
    var s12 := And(s11, HasType(f.orgType));
    And(s12, StreetLike(f.street))
  }

  /**
   The filter read directly off the request parameters: every supplied
   parameter constrains its column, absent ones constrain nothing.
   */
  predicate Matches(f: Filter, o: Organization) {
    && (f.id.Some? ==> o.id == f.id.value)
    && (f.name.Some? ==> LikeIgnoringCase(o.name, f.name.value))
    && (f.coordinatesX.Some? ==> o.coordinates.Some? && o.coordinates.value.x == f.coordinatesX)
    && (f.coordinatesY.Some? ==> o.coordinates.Some? && o.coordinates.value.y == f.coordinatesY)
    && (f.creationDateFrom.Some? ==> f.creationDateFrom.value <= o.creationDate)
    && (f.creationDateTo.Some? ==> o.creationDate <= f.creationDateTo.value)
    && (f.annualTurnoverMin.Some? ==> o.annualTurnover.Some? && f.annualTurnoverMin.value <= o.annualTurnover.value)
    && (f.annualTurnoverMax.Some? ==> o.annualTurnover.Some? && o.annualTurnover.value <= f.annualTurnoverMax.value)
    && (f.fullName.Some? ==> LikeIgnoringCase(o.fullName, f.fullName.value))
    && (f.employeesCountMin.Some? ==> o.employeesCount.Some? && f.employeesCountMin.value <= o.employeesCount.value)
    && (f.employeesCountMax.Some? ==> o.employeesCount.Some? && o.employeesCount.value <= f.employeesCountMax.value)
    && (f.orgType.Some? ==> o.orgType == f.orgType)
    && (f.street.Some? ==> o.officialAddress.Some? && LikeIgnoringCase(o.officialAddress.value.street, f.street.value))
  }

  /* --------------------------------------------------------------- lemmas */

  /** The composed specification accepts a row exactly when every supplied filter does. */
  lemma BuildSpecMatches(f: Filter, o: Organization)
    ensures Accepts(BuildSpec(f), o) <==> Matches(f, o)
  {
  }

  /** With no parameter supplied, the specification has no condition and accepts every row. */
  lemma NoFilterMatchesEverything(o: Organization)
    ensures BuildSpec(NoFilter) == []
    ensures Accepts(BuildSpec(NoFilter), o)
  {
  }

  /** Each supplied parameter adds one condition, and only supplied ones do. */
  lemma BuildSpecSize(f: Filter)
    ensures |BuildSpec(f)| ==
      Supplied(f.id) + Supplied(f.name) + Supplied(f.coordinatesX) + Supplied(f.coordinatesY)
      + Supplied(f.creationDateFrom) + Supplied(f.creationDateTo)
      + Supplied(f.annualTurnoverMin) + Supplied(f.annualTurnoverMax) + Supplied(f.fullName)
      + Supplied(f.employeesCountMin) + Supplied(f.employeesCountMax)
      + Supplied(f.orgType) + Supplied(f.street)
  {
    var s1 := And([], HasId(f.id));
    var s2 := And(s1, NameLike(f.name));
    var s3 := And(s2, HasCoordinateX(f.coordinatesX));
    var s4 := And(s3, HasCoordinateY(f.coordinatesY));
    var s5 := And(s4, CreatedAfter(f.creationDateFrom));
    var s6 := And(s5, CreatedBefore(f.creationDateTo));
    var s7 := And(s6, AnnualTurnoverMin(f.annualTurnoverMin));
    var s8 := And(s7, AnnualTurnoverMax(f.annualTurnoverMax));
    var s9 := And(s8, FullNameLike(f.fullName));
    var s10 := And(s9, EmployeesCountMin(f.employeesCountMin));
    var s11 := And(s10, EmployeesCountMax(f.employeesCountMax));
    var s12 := And(s11, HasType(f.orgType));
    assert |s4| == Supplied(f.id) + Supplied(f.name) + Supplied(f.coordinatesX) + Supplied(f.coordinatesY);
    assert |s8| == |s4| + Supplied(f.creationDateFrom) + Supplied(f.creationDateTo)
      + Supplied(f.annualTurnoverMin) + Supplied(f.annualTurnoverMax);
    assert |s12| == |s8| + Supplied(f.fullName) + Supplied(f.employeesCountMin)
      + Supplied(f.employeesCountMax) + Supplied(f.orgType);
    assert BuildSpec(f) == And(s12, StreetLike(f.street));
  }

  /** An empty name argument becomes the pattern `%%`, which every present name satisfies. */
  lemma EmptyNameMatchesAll(o: Organization)
    requires o.name.Some?
    ensures Holds(NameLike(Some([])).value, o)
  {
    Text.ContainsEmpty(Text.Lower(o.name.value));
  }

  /** A row without turnover fails both turnover bounds, and one without full name fails `fullNameLike`. */
  lemma AbsentColumnsNeverMatch(o: Organization, bound: real, pattern: string)
    requires o.annualTurnover.None? && o.fullName.None?
    ensures !Holds(AnnualTurnoverMin(Some(bound)).value, o)
    ensures !Holds(AnnualTurnoverMax(Some(bound)).value, o)
    ensures !Holds(FullNameLike(Some(pattern)).value, o)
  {
  }

  /** Both ends of every range are inclusive: a row sitting exactly on the bound is kept. */
  lemma BoundsAreInclusive(o: Organization)
    requires o.annualTurnover.Some? && o.employeesCount.Some?
    ensures Holds(CreatedAfter(Some(o.creationDate)).value, o)
    ensures Holds(CreatedBefore(Some(o.creationDate)).value, o)
    ensures Holds(AnnualTurnoverMin(o.annualTurnover).value, o)
    ensures Holds(AnnualTurnoverMax(o.annualTurnover).value, o)
    ensures Holds(EmployeesCountMin(o.employeesCount).value, o)
    ensures Holds(EmployeesCountMax(o.employeesCount).value, o)
  {
  }
}

=== FILE: text.dfy ===
/**
 The few `java.lang.String` operations the service relies on, over `seq<char>`:
 `trim`, `toLowerCase` (ASCII only), `contains`, `replace(char, char)` and
 `split` with a one-character separator, including its rule that trailing
 empty strings are discarded.
 */
module Text {
  import opened Wrappers

  /** `String.trim` strips every character whose code is at most U+0020. */
  predicate Strippable(c: char) {
    c <= ' '
  }

  /** True when no character of `s` survives `trim`: the `@NotBlank` failure case. */
  predicate IsBlank(s: string) {
    Trim(s) == []
  }

  /* ---------------------------------------------------------------- trim */

  /** Where `trim` starts: the length of the run of strippable characters at the front. */
  function LeadingBlanks(s: string): (n: nat)
    ensures n <= |s|
    ensures forall k :: 0 <= k < n ==> Strippable(s[k])
    ensures n == |s| || !Strippable(s[n])
    decreases |s|
  {
    if |s| == 0 || !Strippable(s[0]) then 0
    else
      var m := LeadingBlanks(s[1..]);
      assert forall k :: 1 <= k <= m ==> s[k] == s[1..][k - 1];
      1 + m
  }

  /** Where `trim` stops: the start of the run of strippable characters at the back. */
  function TrailingStart(s: string): (n: nat)
    ensures n <= |s|
    ensures forall k :: n <= k < |s| ==> Strippable(s[k])
    ensures n == 0 || !Strippable(s[n - 1])
    decreases |s|
  {
    if |s| == 0 || !Strippable(s[|s| - 1]) then |s|
    else
      var m := TrailingStart(s[..|s| - 1]);
      assert forall k :: 0 <= k < |s| - 1 ==> s[k] == s[..|s| - 1][k];
      m
  }

  /**
   `String.trim`: the slice of `s` left after cutting strippable characters
   off both ends. The result is empty exactly when every character is
   strippable, and otherwise starts and ends with a character that is not.
   */
  function Trim(s: string): (r: string)
    ensures |r| <= |s|
    ensures exists i, j ::
      && 0 <= i <= j <= |s|
      && r == s[i..j]
      && (forall k :: 0 <= k < i || j <= k < |s| ==> Strippable(s[k]))
    ensures r == [] || (!Strippable(r[0]) && !Strippable(r[|r| - 1]))
    ensures r == [] <==> forall i :: 0 <= i < |s| ==> Strippable(s[i])
  {
    var i, j := LeadingBlanks(s), TrailingStart(s);
    if i < j then s[i..j]
    else
      assert i == |s|;
      assert s[0..0] == [];
      []
  }

  /** A string with no strippable character at either end is its own trim. */
  lemma TrimOfTrimmed(s: string)
    requires s == [] || (!Strippable(s[0]) && !Strippable(s[|s| - 1]))
    ensures Trim(s) == s
  {
    if s != [] {
      assert LeadingBlanks(s) == 0 && TrailingStart(s) == |s|;
      assert s[0..|s|] == s;
    }
  }

  /** `trim` is idempotent. */
  lemma TrimIdempotent(s: string)
    ensures Trim(Trim(s)) == Trim(s)
  {
    TrimOfTrimmed(Trim(s));
  }

  /* ------------------------------------------------------- toLowerCase */

  /** ASCII case folding; other characters are left alone. */
  function LowerChar(c: char): char {
    if 'A' <= c <= 'Z' then (c as int - 'A' as int + 'a' as int) as char else c
  }

  function Lower(s: string): (r: string)
    ensures |r| == |s|
    ensures forall i :: 0 <= i < |s| ==> r[i] == LowerChar(s[i])
    ensures forall i :: 0 <= i < |r| ==> !('A' <= r[i] <= 'Z')
  {
    seq(|s|, i requires 0 <= i < |s| => LowerChar(s[i]))
  }

  /** Text without upper-case ASCII letters is its own lower case. */
  lemma LowerOfLowercase(s: string)
    requires forall i :: 0 <= i < |s| ==> !('A' <= s[i] <= 'Z')
    ensures Lower(s) == s
  {
  }

  /* ------------------------------------------------------------ contains */

  predicate StartsWith(s: string, prefix: string) {
    |prefix| <= |s| && s[..|prefix|] == prefix
  }

  /**
   `haystack.contains(needle)`: some suffix of `haystack` starts with `needle`,
   which is to say `needle` is a contiguous slice of `haystack`.
   */
  function Contains(haystack: string, needle: string): (b: bool)
    ensures b <==> exists i, j :: 0 <= i <= j <= |haystack| && haystack[i..j] == needle
    ensures b ==> |needle| <= |haystack|
  {
    var b := exists i :: 0 <= i <= |haystack| && StartsWith(haystack[i..], needle);
    assert b ==> exists i, j :: 0 <= i <= j <= |haystack| && haystack[i..j] == needle by {
      if b {
        var i :| 0 <= i <= |haystack| && StartsWith(haystack[i..], needle);
        assert haystack[i..i + |needle|] == needle;
      }
    }
    assert (exists i, j :: 0 <= i <= j <= |haystack| && haystack[i..j] == needle) ==> b by {
      if exists i, j :: 0 <= i <= j <= |haystack| && haystack[i..j] == needle {
        var i, j :| 0 <= i <= j <= |haystack| && haystack[i..j] == needle;
        assert StartsWith(haystack[i..], needle);
      }
    }
    b
  }

  /** The empty string occurs in every string. */
  lemma ContainsEmpty(haystack: string)
    ensures Contains(haystack, [])
  {
    assert StartsWith(haystack[0..], []);
  }

  /* -------------------------------------------------------------- length */

  /** The first code point that needs a surrogate pair in UTF-16. */
  const FirstSupplementary: char := '\U{10000}'

  /**
   `String.length()`: Java strings count UTF-16 code units, so a character
   outside the Basic Multilingual Plane counts twice.
   */
  function Utf16Length(s: string): (n: nat)
    ensures |s| <= n <= 2 * |s|
    ensures n == |s| <==> forall i :: 0 <= i < |s| ==> s[i] < FirstSupplementary
    decreases |s|
  {
    if |s| == 0 then 0
    else
      var m := |s| - 1;
      var init := Utf16Length(s[..m]);
      assert forall i :: 0 <= i < m ==> s[..m][i] == s[i];
      init + (if s[m] < FirstSupplementary then 1 else 2)
  }

  /** The length of a concatenation is the sum of the lengths. */
  lemma {:induction false} Utf16LengthAppend(a: string, b: string)
    ensures Utf16Length(a + b) == Utf16Length(a) + Utf16Length(b)
    decreases |b|
  {
    if |b| > 0 {
      var n := |b| - 1;
      assert (a + b)[..|a + b| - 1] == a + b[..n];
      assert (a + b)[|a + b| - 1] == b[n];
      Utf16LengthAppend(a, b[..n]);
    } else {
      assert a + b == a;
    }
  }

  /* ------------------------------------------------------------- replace */

  /** `String.replace`: every occurrence of `from` becomes `to`. */
  function ReplaceAll(s: string, from: char, to: char): (r: string)
    ensures |r| == |s|
    ensures forall i :: 0 <= i < |s| ==> r[i] == (if s[i] == from then to else s[i])
  {
    seq(|s|, i requires 0 <= i < |s| => if s[i] == from then to else s[i])
  }

  /** After replacing, `from` no longer occurs, and text without `from` is left unchanged. */
  lemma ReplaceAllRemoves(s: string, from: char, to: char)
    requires from != to
    ensures from !in ReplaceAll(s, from, to)
    ensures from !in s ==> ReplaceAll(s, from, to) == s
  {
    var r := ReplaceAll(s, from, to);
    assert forall i :: 0 <= i < |r| ==> r[i] != from;
  }

  /* --------------------------------------------------------------- split */

  /** Position of the first occurrence of `c` in `s`. */
  function IndexOf(s: string, c: char): (r: Option<nat>)
    ensures r.None? <==> c !in s
    ensures r.Some? ==> r.value < |s| && s[r.value] == c && c !in s[..r.value]
    decreases |s|
  {
    if |s| == 0 then None
    else if s[0] == c then Some(0)
    else
      match IndexOf(s[1..], c)
      case None => None
      case Some(i) =>
        assert s[..i + 1] == [s[0]] + s[1..][..i];
        Some(i + 1)
  }

  /** Glues the pieces back together with `d` between neighbours. */
  function Join(pieces: seq<string>, d: char): string
    requires |pieces| >= 1
    decreases |pieces|
  {
    if |pieces| == 1 then pieces[0] else pieces[0] + [d] + Join(pieces[1..], d)
  }

  /** Every piece between occurrences of `d`, empty ones included; joining them gives `s` back. */
  function Pieces(s: string, d: char): (r: seq<string>)
    ensures |r| >= 1
    ensures forall p :: p in r ==> d !in p
    ensures Join(r, d) == s
    decreases |s|
  {
    match IndexOf(s, d)
    case None => [s]
    case Some(i) =>
      var rest := Pieces(s[i + 1..], d);
      var r := [s[..i]] + rest;
      assert r[1..] == rest;
      assert s == s[..i] + [d] + s[i + 1..];
      r
  }

  /** Drops the empty strings at the end, as `split` with limit 0 does. */
  function DropTrailingEmpty(ps: seq<string>): (r: seq<string>)
    ensures |r| <= |ps| && r == ps[..|r|]
    ensures r == [] || r[|r| - 1] != []
    ensures forall i :: |r| <= i < |ps| ==> ps[i] == []
    decreases |ps|
  {
    if |ps| > 0 && ps[|ps| - 1] == [] then DropTrailingEmpty(ps[..|ps| - 1]) else ps
  }

  /**
   `s.split(d)` for a separator that is not a regular-expression metacharacter:
   when `d` does not occur the answer is `[s]` (even for the empty string);
   otherwise the pieces between separators, without the trailing empty ones.
   */
  function Split(s: string, d: char): (r: seq<string>)
    ensures forall p :: p in r ==> d !in p
    ensures |r| <= |Pieces(s, d)| && r == Pieces(s, d)[..|r|]
    ensures d !in s ==> r == [s]
    ensures d in s ==> r == [] || r[|r| - 1] != []
    ensures d in s ==> forall i :: |r| <= i < |Pieces(s, d)| ==> Pieces(s, d)[i] == []
  {
    if d !in s then [s] else DropTrailingEmpty(Pieces(s, d))
  }

  /** The first occurrence of `d` in `a + [d] + b` is right after `a`. */
  lemma {:induction false} IndexOfSeparator(a: string, d: char, b: string)
    requires d !in a
    ensures IndexOf(a + [d] + b, d) == Some(|a|)
    decreases |a|
  {
    var s := a + [d] + b;
    if |a| > 0 {
      assert s[0] == a[0];
      assert s[1..] == a[1..] + [d] + b;
      IndexOfSeparator(a[1..], d, b);
    }
  }

  /** `Pieces` undoes `Join` when no piece contains the separator. */
  lemma {:induction false} PiecesOfJoin(ps: seq<string>, d: char)
    requires |ps| >= 1
    requires forall p :: p in ps ==> d !in p
    ensures Pieces(Join(ps, d), d) == ps
    decreases |ps|
  {
    if |ps| > 1 {
      var rest := Join(ps[1..], d);
      var s := ps[0] + [d] + rest;
      assert Join(ps, d) == s;
      IndexOfSeparator(ps[0], d, rest);
      assert s[..|ps[0]|] == ps[0];
      assert s[|ps[0]| + 1..] == rest;
      PiecesOfJoin(ps[1..], d);
      assert ps == [ps[0]] + ps[1..];
    }
  }

  /**
   `Split` undoes `Join` when no piece contains the separator and the last
   piece is not empty (a single piece may be empty).
   */
  lemma SplitOfJoin(ps: seq<string>, d: char)
    requires |ps| >= 1
    requires forall p :: p in ps ==> d !in p
    requires |ps| == 1 || ps[|ps| - 1] != []
    ensures Split(Join(ps, d), d) == ps
  {
    PiecesOfJoin(ps, d);
    if |ps| > 1 {
      var s := Join(ps, d);
      assert s == ps[0] + [d] + Join(ps[1..], d);
      assert s[|ps[0]|] == d;
    }
  }
}

=== FILE: wrappers.dfy ===
/** The Option type used for every Java field or request parameter that may be null. */
module Wrappers {

  /** `None` stands for Java's `null`; `Some(v)` for a present value. */
  datatype Option<+T> = None | Some(value: T) {

    /** Returns the present value, or `default` when absent. */
    function UnwrapOr(default: T): T {
      match this
      case Some(v) => v
      case None => default
    }
  }
}
